=== FILE: README.md ===
# 2magers bot core, modelled in Dafny

This project models the sequential logic of the 2magers Discord bot, with the Discord and MongoDB plumbing removed. What remains:

- **The moderation case ledger.**
  - A counter document hands out case numbers.
  - Records (warn, mute/timeout, ban, note) are inserted, found by number and removed.
  - Per-user listings filter cases by kind, sort them by case number and keep the last 25, with an "older cases were omitted" count.
  - A case is flagged expired once its age reaches the retention window.
- **The `can_moderate_user` permission predicate** and the commands guarded by it (`warn`, `addnote`, `mute`, `ban`, `removecase`).
- **The formatters:**
  - `seconds_to_pretty`, the greedy year/month/day/hour/minute/second wording;
  - `duration_to_str` (`m:ss`);
  - the clamped progress bar `create_bar`;
  - the label table `LOG_TYPE_PRETTY`.
- **Commands from the general cog:**
  - the `selfmute` limit;
  - the `np` progress line;
  - the `whois` role order;
  - the pronouns.page opinion merge and entry lines;
  - the `debate` role toggle.
- **The question-of-the-day queue:** add, the bounded numbered listing, and the daily FIFO pop.
- **The modmail channel→user registry:**
  - the in-memory cache that mirrors the `modmails` collection;
  - DM routing;
  - the `reply`/`close` guards;
  - the one-per-user check of `start_mail`;
  - creation through the prompt modal, as a separate step from the button press.
- **The owner `run` command:**
  - the `insert_returns` AST rewrite;
  - stripping the code fence;
  - `splitlines` and re-indenting into an `async def`;
  - the 2000-character reply limit.
- **The `embed` and `edit_embed` commands:** the channel default, the `\n` escape, the colour error and the override merge.

Every state change is modelled as a pure function from the old state to the new one:

- the Mongo collections as sequences;
- the counter documents as a map;
- the modmail cache as a sequence of channel/user pairs with unique channels;
- a member's roles as a set.

Time is an integer number of seconds. Anything that comes from outside becomes a parameter:

- the current time;
- the retention window;
- whether Discord accepted a send, timeout or ban;
- the modmail counter value;
- the colour parser.

Module layout, one module per source file:

- `Wrappers`: Option and Result.
- `Text`: decimal digits, strip and join.
- `Pretty`: `seconds_to_pretty`.
- `Permissions`: `can_moderate_user`.
- `Ledger`: the case store and counter.
- `Listing`: shared window logic.
- `Moderation` and `Modlogs`: the two cogs.
- `Utils`: the bar.
- `General`, `Qotd`, `Modmail`, `Owner`, `Embeds`: one per cog.

## Model

| member | source | states |
|---|---|---|
| Pretty.QuotientsReconstruct | cogs/moderation.py:22-24 | the greedy `divmod` loop loses nothing: the quotients weighted by their units plus the final remainder give back the input |
| Pretty.DecomposeSteps | cogs/moderation.py:11-24 | the six values are the successive quotients by 31536000, 2592000, 86400, 3600, 60 and 1 of the running remainder |
| Pretty.DecomposeReconstructs | cogs/moderation.py:11-24 | for whole seconds, years·31536000 + months·2592000 + days·86400 + hours·3600 + minutes·60 + seconds equals the input |
| Pretty.DecomposeBounds | cogs/moderation.py:11-24 | years are seconds div 31536000; months ≤ 12, days < 30, hours < 24, minutes < 60, seconds < 60 |
| Pretty.PrettyIsJoinOfPieces | cogs/moderation.py:23-31 | the output is the pieces of the non-zero units, largest first, joined by ", "; each piece is the value, a space, then the unit name, with "s" when the value exceeds 1 |
| Pretty.NoPiecesIffZero | cogs/moderation.py:23-29 | the loop emits no piece exactly when the input is 0 |
| Pretty.PrettyEmptyIffZero | cogs/moderation.py:31 | the result is "" iff the input is 0, and a non-empty result never ends in ',' or ' ' |
| Permissions.CanModerateUser | cogs/moderation.py:79-85 | never a bot or oneself; the guild owner may moderate any other human; anyone else only a human whose top role is strictly below their own |
| Permissions.NoMutualModeration | cogs/moderation.py:79-85 | two non-owners can never both moderate each other |
| Permissions.RoleOrderIsStrictTotal | cogs/moderation.py:82 | the role comparison used by `<=` (position, then id) is a strict total order |
| Ledger.InsertModlog | cogs/moderation.py:88-109 | with no counter document, nothing changes and the insert fails. Otherwise the counter goes up by one and the record gets the pre-increment value, the given user, moderator, kind, reason, duration and time, and is appended. A zero duration is not storable and fails after the increment |
| Ledger.InsertPreservesWellFormed | cogs/moderation.py:94-107 | if every stored number is below the counter and the numbers are distinct, the same holds after an insert |
| Ledger.InsertThenFind | cogs/moderation.py:94-107 | a freshly inserted case is the one found by its number |
| Ledger.SuccessiveInsertsConsecutive | cogs/moderation.py:94-95 | two inserts in a row move the counter by two and give consecutive case numbers |
| Ledger.FindIndex | cogs/moderation.py:223 | None iff no record has the number; otherwise the first position holding it |
| Ledger.FindCase | cogs/moderation.py:223-227 | a found case is in the store with that number; None iff no record has it |
| Ledger.DeleteAt | cogs/moderation.py:235 | removes exactly one occurrence of the chosen record and keeps the others in order |
| Ledger.FoundCaseIsUnique | cogs/moderation.py:223-235 | with distinct numbers, the found record is the only one with that number |
| Ledger.DeleteFoundRemovesNumber | cogs/moderation.py:235 | after deleting the found record the number is no longer found, and the store stays well formed |
| Ledger.SortByNumber | cogs/moderation.py:123 | the result is ordered by case number and is a permutation of the input |
| Ledger.InsertSorted | cogs/moderation.py:123 | inserting into an ordered sequence keeps it ordered and adds exactly the one record |
| Listing.Query | cogs/modlogs.py:30-31 | a case is listed iff it is stored, belongs to the user and passes the kind filter |
| Listing.LastWindow | cogs/moderation.py:126-127 | keeps min(n, 25) elements, and they are the last ones |
| Listing.Build | cogs/moderation.py:126-155 | no fields iff there are no cases; otherwise the last min(n, 25) sorted cases in order, each flagged by the marking rule, with n − 25 omitted iff n > 25 |
| Listing.ListingIsLastWindow | cogs/modlogs.py:30-67 | the listing shows the last min(count, 25) of the user's sorted cases, and the footer reports count − 25 exactly when count > 25 |
| Listing.ListingOnlyMatching | cogs/modlogs.py:30-35 | every listed case is stored, matches user and filter, and the listed numbers ascend |
| Listing.ListingKeepsHighestNumbers | cogs/moderation.py:122-127 | any matching case left out has a number no greater than every listed one |
| Moderation.GetMember | cogs/moderation.py:229 | a lookup by a text key never finds a member; an integer key finds one iff it is in the guild |
| Moderation.WarnMember | cogs/moderation.py:177-184 | refused with nothing changed when the actor may not moderate; otherwise the counter is bumped, and with a counter document the warning is always logged as the next case number with the target, the moderator, the reason, no duration and the current time, appended to the ledger; without one nothing is logged |
| Moderation.WarnKeepsLedger | cogs/moderation.py:177-184 | `warn` keeps the ledger well formed, and a logged warning is what a lookup by its number finds |
| Moderation.AddNote | cogs/moderation.py:209-212 | no permission check is made; the counter is bumped, and with a counter document the note is always logged as the next case number under the target, with the moderator, the note as its reason, no duration and the current time, appended to the ledger; without one nothing changes |
| Moderation.AddNoteKeepsLedger | cogs/moderation.py:209-212 | `addnote` keeps the ledger well formed, and a logged note is what a lookup by its number finds |
| Moderation.MuteLength | cogs/moderation.py:255-260 | "invalid duration" iff duration < 1; the OverflowError of `timedelta` (no reply) iff duration ≥ 1 and duration × unit seconds is beyond the timedelta range; otherwise duration × unit seconds, at least 60 |
| Moderation.MuteLengthRange | cogs/moderation.py:255-260 | a mute length is accepted iff duration ≥ 1 and duration × unit seconds is below 1,000,000,000 days |
| Moderation.MuteMember | cogs/moderation.py:247-271 | refused when the actor may not moderate, then with the duration check's answer (invalid or overflow), and nothing is stored when Discord refuses the timeout; a permitted, valid, allowed mute with a counter document is always logged as the next case number with target, moderator, reason, duration × unit seconds and the current time, appended with the counter bumped |
| Moderation.MuteKeepsLedger | cogs/moderation.py:247-271 | `mute` keeps the ledger well formed, and a logged timeout is what a lookup by its number finds |
| Moderation.BanMember | cogs/moderation.py:364-398 | refused when the actor may not moderate; "unable to ban" when the bot's top role is not above the target's. Otherwise, with a counter document, the case (next number, target, moderator, reason, no duration, current time) is stored before the ban is attempted: the outcome is logged when Discord allows the ban and a failed ban that still leaves its record when it does not |
| Moderation.BanKeepsLedger | cogs/moderation.py:364-398 | `ban` keeps the ledger well formed, and its case, logged whether or not the ban went through, is what a lookup by its number finds |
| Moderation.RemoveCase | cogs/moderation.py:219-238 | corrected removal. A missing number answers "not found" and changes nothing. The case is removed iff it exists and its user is not in the guild or may be moderated by the actor; a removal deletes exactly the first record with that number, any refusal changes nothing, and the counter is never touched |
| Moderation.RemoveCaseKeepsWellFormed | cogs/moderation.py:235 | in a well-formed ledger, a removal takes the number out of the ledger and the ledger stays well formed |
| Moderation.RemoveCaseAsWritten | cogs/moderation.py:219-238 | as written: a missing number answers "not found" and changes nothing; every existing case is removed whoever its user is, and the removal deletes exactly the first record with that number, keeping the others in order; hierarchy is never a reason to refuse, and the counter is never touched |
| Moderation.RemoveCaseAsWrittenDiffers | cogs/moderation.py:229-232 | the as-written and corrected removals differ exactly when the corrected one refuses for hierarchy, and then the as-written one removes the case |
| Moderation.RemoveCaseAsWrittenIgnoresHierarchy | cogs/moderation.py:229-232 | concrete case: a moderator below the target deletes the target's case as written, while the corrected version refuses |
| Moderation.Modlogs | cogs/moderation.py:122-155 | "no logs" iff the user has no cases; otherwise the last min(n, 25) of the user's cases by number, in order, with n − 25 omitted iff n > 25; nothing is flagged expired |
| Modlogs.LogTypePrettyTotal | cogs/modlogs.py:12-17 | the label table covers exactly the four kinds: timeout→mute, warn→warning, ban→ban, note→note |
| Modlogs.KindLabelRoundTrip | cogs/modlogs.py:12-44 | the capitalised label of every kind reads back as that kind, so distinct kinds get distinct labels |
| Modlogs.Capitalize | cogs/modlogs.py:44 | keeps the length and every character after the first |
| Modlogs.FieldTitle | cogs/modlogs.py:44 | every field title starts with "Case #" and ends with the separator bar and the kind's label |
| Modlogs.FieldTitleReadsBack | cogs/modlogs.py:44 | reading a field title back gives the case's number and kind |
| Modlogs.ModlogsListing | cogs/modlogs.py:30-69 | at most 25 fields, "no logs" iff the count is 0, count − 25 omitted iff count > 25; every field is the user's and is expired iff it is not a note and now − timestamp ≥ the window |
| Modlogs.ViewNotes | cogs/modlogs.py:79-111 | the same bound over the user's notes; only notes of that user are listed and none is flagged |
| Modlogs.MyModlogs | cogs/modlogs.py:120-159 | the same bound over the author's non-note cases; no note is listed and every field is expired iff its age reaches the window |
| Utils.Clamp | utils.py:13 | the clamped progress lies in [0, total]: unchanged inside, 0 below, total above |
| Utils.CreateBar | utils.py:12-18 | no bar (division by zero) iff total is 0; otherwise exactly `size` characters |
| Utils.BarShape | utils.py:13-18 | filled cells come first, then empty ones; the filled count f satisfies f·total ≤ clamped·size < (f+1)·total, i.e. it is the floor of clamped·size/total |
| Utils.BarFullAtTotal | utils.py:13-18 | progress ≥ total gives an all-filled bar |
| Utils.BarEmptyAtZero | utils.py:13-18 | progress ≤ 0 gives an all-empty bar |
| Utils.BarMonotone | utils.py:13-18 | more progress never gives fewer filled cells |
| Utils.MulLe | utils.py:15 | arithmetic helper for the bar proofs: multiplying both sides of a ≤ b by a natural number keeps the order |
| Utils.DivFloor | utils.py:15 | arithmetic helper for the bar proofs: Dafny's `/` by a positive divisor is the floor, as `int(progress / total * size)` is for the non-negative values it gets |
| Utils.FilledCountOfBar | utils.py:18 | the filled-prefix length of a filled-then-empty bar is the number of filled cells |
| General.DurationToStrReadsBack | cogs/general.py:40-44 | the text is `<minutes>:<ss>` with a two-digit seconds field below 60, and minutes·60 + seconds reads back to the input |
| General.Pad2Reads | cogs/general.py:44 | the zero-padded field reads back as its value |
| General.SelfMuteAsWritten | cogs/general.py:63-66 | as written: the request goes unanswered (OverflowError) iff time × scale minutes is beyond the timedelta range; otherwise it is refused iff it is at least 29 days in minutes, and else asks for time × scale minutes |
| General.SelfMuteAsWrittenOverflows | cogs/general.py:63-64 | concrete case: `selfmute 1440000000000 minutes` overflows the timedelta as written, while the corrected rule answers that it is too long |
| General.SelfMuteAsWrittenAdmitsOverLimit | cogs/general.py:64-66 | 684 hours (28.5 days) is accepted as written, though it exceeds the 28-day maximum |
| General.SelfMute | cogs/general.py:63-66 | corrected: refused iff the requested minutes exceed 28 days, otherwise a mute of exactly that many minutes; nothing overflows |
| General.SelfMuteAgreesOutsideGap | cogs/general.py:63-66 | the corrected and as-written rules agree iff the request fits a timedelta and is not strictly between 28 and 29 days |
| General.NowPlayingLine | cogs/general.py:107-113 | there is no line (the bar divides by zero) exactly when the `.seconds` part of the duration, duration mod 86400, is 0 |
| General.NowPlayingClamped | cogs/general.py:107-113 | for durations under a day, the clamped progress lies in [0, duration] and the line starts with a 15-cell bar whose filled count is the floor of progress·15/duration, then a space |
| General.WhoisDropsFirstAndReverses | cogs/general.py:172-173 | reversing the listed roles gives every role but the first, in order, and the count shown is len(roles) − 1 |
| General.ReverseIndex | cogs/general.py:172 | element i of the reversal is element n − 1 − i |
| General.MergeOpinions | cogs/general.py:260-265 | keys are the base keys plus the custom keys; a custom opinion overrides as "[description]" and the other base opinions stay |
| General.RenderEntries | cogs/general.py:267-271 | the rendering succeeds iff every entry's opinion is known (otherwise the source raises KeyError) |
| General.RenderEntriesInOrder | cogs/general.py:267-283 | the text is the entry lines in input order, and it is empty iff there are no entries |
| General.DebateToggle | cogs/general.py:312-326 | with the ban role, nothing changes; otherwise the debate role flips and no other role changes |
| General.DebateToggleTwice | cogs/general.py:312-326 | toggling twice restores the original roles |
| Qotd.Add | cogs/qotd.py:28-36 | appends exactly one question with the given text; the credit defaults to the author |
| Qotd.ListQueue | cogs/qotd.py:54-63 | shows a prefix of the queue as numbered lines, never over 4096 characters, and stops only when the next line would not fit |
| Qotd.LinesNumbered | cogs/qotd.py:54-57 | the k-th line begins with "**k.** ", numbering from 1 |
| Qotd.Sender | cogs/qotd.py:71-79 | an empty queue is left as is with the "no questions" notice; otherwise exactly the head is removed and posted |
| Qotd.AddThenSend | cogs/qotd.py:28-79 | adding then sending posts the old head, or the new question if the queue was empty |
| Qotd.SendAllInOrder | cogs/qotd.py:71 | draining the queue by repeated sends posts every question in insertion order |
| Modmail.Get | cogs/modmail.py:84-88 | a hit is an entry of the cache; None iff no entry has that channel |
| Modmail.GetIffIn | cogs/modmail.py:16 | with unique channels, a lookup gives the user iff that pair is cached |
| Modmail.Put | cogs/modmail.py:51-53 | afterwards the channel maps to the user and every other channel is unchanged |
| Modmail.PutShape | cogs/modmail.py:51-53 | an update keeps channels unique and adds nothing but the new pair |
| Modmail.Del | cogs/modmail.py:152 | the channel's entry is gone, other channels are unchanged, and exactly the other entries remain |
| Modmail.DelUnique | cogs/modmail.py:152 | deleting keeps channels unique |
| Modmail.DeleteOne | cogs/modmail.py:153 | removes one matching document if present and keeps every other one |
| Modmail.DeleteOneUnique | cogs/modmail.py:153 | deleting keeps channels unique and the document is gone |
| Modmail.LoadCollects | cogs/modmail.py:49-53 | loading documents into a disjoint cache gives exactly the union, with channels unique |
| Modmail.LoadActiveMirrors | cogs/modmail.py:47-53 | after start-up the cache holds exactly the stored channel/user pairs |
| Modmail.Route | cogs/modmail.py:56-78 | guild messages are never forwarded; a DM goes to the first cached channel whose user is the author, and to none iff no entry has that user |
| Modmail.Reply | cogs/modmail.py:84-88 | refused as "not an active channel" iff the channel is not cached; otherwise the cached user |
| Modmail.Close | cogs/modmail.py:131-153 | an unknown channel is refused with nothing changed; otherwise only that channel's entry is removed |
| Modmail.CloseKeepsMirror | cogs/modmail.py:131-153 | closing keeps cache and store in agreement |
| Modmail.StartMail | cogs/modmail.py:169-183 | refused iff some stored modmail has that user; otherwise the prompt is shown |
| Modmail.CreateMail | cogs/modmail.py:197-218 | the store gets the new document, the cache maps the channel to the user, other channels are unchanged, and the channel is named "mail-" + the counter's digits |
| Modmail.CreateKeepsMirror | cogs/modmail.py:204-218 | creating on a fresh channel keeps cache and store in agreement |
| Modmail.Press | cogs/modmail.py:168-183 | a press leaves the store alone; it is refused with nothing changed iff the user has a stored modmail, otherwise one more prompt is pending for the user |
| Modmail.Submit | cogs/modmail.py:197-218 | as written: a submit needs a pending prompt of that user, then appends the user's new document without looking at the store again and uses up the prompt |
| Modmail.SequentialOpenKeepsOnePerUser | cogs/modmail.py:168-218 | a press followed at once by its submit never gives a user a second modmail |
| Modmail.ButtonRaceOpensTwice | cogs/modmail.py:168-218 | concrete case: two presses before either submit both show the prompt, and the two submits give user 1 two modmails |
| Modmail.SubmitChecked | cogs/modmail.py:197-218 | corrected submit: it repeats the check, drops the prompt and changes nothing when the user already has a modmail, and creates one only when the user has none |
| Modmail.SubmitCheckedKeepsOnePerUser | cogs/modmail.py:168-218 | with the check repeated, every press and every submit keeps at most one modmail per user, in any order |
| Owner.InsertReturnsAsWritten | cogs/owner.py:12-25 | as written: fails on an empty body; on success only the last statement changes: a trailing expression becomes a return of the same value, a trailing if or with has its branches or body rewritten, anything else is kept |
| Owner.IfWithoutElseFails | cogs/owner.py:19-21 | concrete case: a trailing `if` without `else` makes the rewrite fail (IndexError); the corrected rewrite returns from its body |
| Owner.AsWrittenAgrees | cogs/owner.py:12-25 | the as-written rewrite succeeds iff every trailing body it visits is non-empty, and then equals the corrected one |
| Owner.InsertReturns | cogs/owner.py:12-25 | the corrected rewrite keeps the length and every statement but the last; a trailing expression becomes a return of the same value, a trailing if has both branches rewritten, a trailing with has its body rewritten, and any other last statement leaves the body unchanged |
| Owner.InsertReturnsReturnsLast | cogs/owner.py:14-25 | afterwards no trailing expression remains at the end of the body or of a trailing if/with |
| Owner.InsertReturnsFixes | cogs/owner.py:12-25 | a body that already returns last is unchanged |
| Owner.InsertReturnsIdempotent | cogs/owner.py:12-25 | applying the rewrite twice equals applying it once |
| Owner.CleanCode | cogs/owner.py:40-42 | strip backticks and spaces from both ends, then drop one leading "py\n"; never longer than the input |
| Owner.SplitLines | cogs/owner.py:46 | empty iff the input is empty, and no line contains a line break |
| Owner.SplitJoin | cogs/owner.py:46 | splitting non-empty break-free lines joined by "\n" gives the lines back |
| Owner.WrapIndentsEveryLine | cogs/owner.py:46-49 | the generated source splits into the `async def` header followed by every code line indented by four spaces |
| Owner.RunReply | cogs/owner.py:73-78 | the reply is the fenced output when it fits in 2000 characters and "The output is too long?" otherwise; never over 2000 |
| Embeds.ReplaceEscapes | cogs/embeds.py:23 | never lengthens the text and is empty iff the input is |
| Embeds.ReplaceLeavesNoEscape | cogs/embeds.py:23 | no backslash-n pair survives the replacement |
| Embeds.EscapeUndoesReplace | cogs/embeds.py:23 | on text without newlines, escaping the newlines again restores the input |
| Embeds.Override | cogs/embeds.py:64-79 | an unparseable supplied colour is an error; otherwise each supplied field overrides and each unsupplied one keeps the base value |
| Embeds.SendEmbed | cogs/embeds.py:20-44 | the target defaults to the current channel; the title is as given and the description has its escapes replaced; the colour, image and timestamp are set only when supplied, and nothing else is; an unknown colour is the colour error, a failed send with a good colour is the send error, and a delivered send without a bad colour succeeds |
| Embeds.EditEmbed | cogs/embeds.py:56-86 | refuses other authors' messages; starts from the first embed or an empty one; overrides only the supplied fields; a failed edit of an own message with a good colour is the send error, and an own, delivered edit without a bad colour succeeds; nothing supplied gives back the first embed |
| Embeds.EditWithSendArgumentsKeepsEmbed | cogs/embeds.py:20-86 | editing a freshly sent embed with the arguments it was sent with gives it back unchanged |
| Text.ParseNatToString | cogs/modmail.py:204 | decimal rendering of a natural number reads back as that number |
| Text.RStrip | cogs/moderation.py:31 | removes exactly the maximal trailing run of the given characters |
| Text.Strip | cogs/owner.py:40 | removes characters of the set from both ends; the result is "" iff every character is in the set |
| Text.StripIsSlice | cogs/owner.py:40 | the result is the contiguous slice of the input that starts right after the leading run of set characters, and only set characters follow it |

## Left out

- Discord and MongoDB calls are not modelled as such. Sending, deferring, reactions, role add/remove, timeouts, bans and channel creation appear only as their effect on the modelled state, or as a boolean parameter saying whether Discord accepted the call. `find_one_and_update` is one sequential step.
- Floating point is not modelled. `seconds_to_pretty` takes whole seconds, and `create_bar` uses integer floor division in place of `int(progress / total * size)`; the two can differ when the float product rounds. `duration_to_str` takes whole seconds, which is what `floor(total_seconds())` produces.
- Datetimes and timezones are not modelled. Timestamps, `now` and the retention window are integers in seconds.
- `TIER_EXPIRATION` is imported by cogs/modlogs.py from cogs/moderation.py, which does not define it, so the window is a parameter.
- `use_counter` (the modmail number) is not defined in any file, so the number is a parameter.
- The colour converter is a library call, so it is a parameter of type `string -> Option<nat>`.
- The role order of `<=` on roles comes from the Discord library: position first, then the lower id ranks higher. It is written out in `Permissions.RoleLt`. The library also ranks @everyone (the role whose id is the guild's) below every other role; the model leaves that rule out because Discord gives @everyone position 0 and every other role a position of at least 1, so the position order already puts it lowest.
- `mute` can also fail in `timeout_for` with errors other than the missing permission (Discord rejects timeouts longer than 28 days); those are not modelled beyond the boolean that says whether the timeout was applied.
- Rendering of case embeds (`mod_case_embed`, `user_case_embed`, the field descriptions with `**Reason:**` etc.) is not modelled beyond the field title. Neither are the `getcase`, `unmute`, `unban` and `purge` commands, which have no logic beyond Discord calls.
- `exec`, `eval`, `compile` and `ast.parse` in `run` are not modelled. `ast.parse` is taken as producing the statement list the rewrite receives, and the error reply of `run` is not modelled.
- `str.splitlines` treats `\r\n` as one break. The model does that, and also covers the other Unicode line separators that Python recognises.
- The pronouns.page HTTP fetch, the flag emoji lookup and the links field are not modelled. Neither are `breathe`, `boostbadge` and `rule14`, which only relay fixed text or network data.
- The images, verification, passive, context-menus and main files are not modelled: they do image compositing or straight-line API calls. The verification cog and cogs/modlogs.py import a `seconds_to_pretty` from utils.py that utils.py does not define. The model uses the definition in cogs/moderation.py.
- Two details of the code that the model keeps as written:
  - expiry is inclusive: a case is expired once its age reaches the window (`>=`, cogs/modlogs.py:49);
  - `insert_modlog` numbers the case with the counter's value from before the increment, and fails without a counter document because the update has no upsert (cogs/moderation.py:94-95).
- Modmail.DeleteOne: states membership and length rather than a multiset equation.
- General.NowPlayingClamped: only covers durations under one day. For longer durations `timedelta.seconds` drops whole days, and `create_bar` may then divide by zero. `General.NowPlayingLine` states when that happens.

## Findings

| source | as written | input that shows it | evidently intended | confidence | as-written member | corrected member |
|---|---|---|---|---|---|---|
| cogs/moderation.py:229-230 (also cogs/modlogs.py:191-192) | `ctx.guild.get_member(case["user"])` passes the stored user id, which is a string, so the lookup never finds a member and the hierarchy check never refuses | a case of a member whose top role is above the moderator's: removal goes ahead | refuse removal when the actor may not moderate the case's user | not executed | Moderation.RemoveCaseAsWrittenIgnoresHierarchy | Moderation.RemoveCase |
| cogs/general.py:65 | `delta.days > 28` only rejects at 29 whole days, so anything up to 28 days 23:59 passes the "max timeout is 28 days" guard | `selfmute 684 hours` (28.5 days) is accepted | reject any request longer than 28 days | not executed | General.SelfMuteAsWrittenAdmitsOverLimit | General.SelfMute |
| cogs/general.py:63 | the timedelta is built before the 28-day guard, and `timedelta` raises OverflowError beyond 999999999 days | `selfmute 1440000000000 minutes` gets no reply | answer "the max timeout is 28 days" for every request over the limit | not executed | General.SelfMuteAsWrittenOverflows | General.SelfMute |
| cogs/modmail.py:169-214 | `start_mail` checks for an open modmail, but `PromptModal.callback` inserts the new one later without checking again | press the button twice (two clients, or again while the first prompt is open), then submit both prompts: one user has two modmails | one modmail per user, whatever the order of presses and submits | not executed | Modmail.ButtonRaceOpensTwice | Modmail.SubmitChecked |
| cogs/owner.py:19-21 | `insert_returns(body[-1].orelse)` is called even when the `if` has no `else`, and `body[-1]` on the empty list raises IndexError | `run` with code whose last statement is `if x: y` | leave an empty branch alone | not executed | Owner.IfWithoutElseFails | Owner.InsertReturnsReturnsLast |

=== FILE: embeds.dfy ===
/** cogs/embeds.py: `embed` builds an embed from optional fields and sends
    it; `edit_embed` overwrites the supplied fields of a message's embed.
    Colour parsing belongs to the command library, so it is a parameter; the
    clock reading for the timestamp is a parameter too. */
module Embeds {
  import opened Wrappers

  /** The parts of an embed the commands read or write. `footer` and
      `fields` are never written and stand for everything else an existing
      embed may carry. */
  datatype Embed = Embed(
    title: Option<string>,
    description: Option<string>,
    colour: Option<nat>,
    image: Option<string>,
    timestamp: Option<int>,
    footer: Option<string>,
    fields: seq<(string, string)>)

  /** `discord.Embed()` */
  const EmptyEmbed := Embed(None, None, None, None, None, None, [])

  /** Python truthiness of an optional string argument. */
  predicate Given(o: Option<string>) {
    o.Some? && |o.value| > 0
  }

  /** `s.replace("\\n", "\n")`: each backslash-n pair, found left to right
      without overlap, becomes a newline. */
  function ReplaceEscapes(s: string): (r: string)
    ensures |r| <= |s|
    ensures |r| > 0 <==> |s| > 0
    ensures |r| > 0 && r[0] != '\n' ==> r[0] == s[0]
  {
    if |s| >= 2 && s[0] == '\\' && s[1] == 'n' then "\n" + ReplaceEscapes(s[2..])
    else if |s| == 0 then ""
    else [s[0]] + ReplaceEscapes(s[1..])
  }

  /** No backslash directly followed by `n`. */
  predicate NoEscape(s: string) {
    forall i :: 0 <= i < |s| - 1 ==> !(s[i] == '\\' && s[i + 1] == 'n')
  }

  /** The replacement leaves no backslash-n pair behind. */
  lemma {:induction false} ReplaceLeavesNoEscape(s: string)
    ensures NoEscape(ReplaceEscapes(s))
  {
    if |s| >= 2 && s[0] == '\\' && s[1] == 'n' {
      ReplaceLeavesNoEscape(s[2..]);
      var t := ReplaceEscapes(s[2..]);
      assert ReplaceEscapes(s) == "\n" + t;
      assert forall i :: 1 <= i < |t| + 1 ==> ("\n" + t)[i] == t[i - 1];
    } else if |s| > 0 {
      ReplaceLeavesNoEscape(s[1..]);
      var t := ReplaceEscapes(s[1..]);
      assert ReplaceEscapes(s) == [s[0]] + t;
      assert forall i :: 1 <= i < |t| + 1 ==> ([s[0]] + t)[i] == t[i - 1];
      if s[0] == '\\' && |t| > 0 {
        assert |s| >= 2 && s[1] != 'n';
      }
    }
  }

  /** Turn newlines back into backslash-n. */
  function Escape(s: string): (r: string)
    ensures |r| >= |s|
  {
    if |s| == 0 then ""
    else if s[0] == '\n' then "\\n" + Escape(s[1..])
    else [s[0]] + Escape(s[1..])
  }

  /** Text without newlines survives the replacement and escaping back. */
  lemma {:induction false} EscapeUndoesReplace(s: string)
    requires forall i :: 0 <= i < |s| ==> s[i] != '\n'
    ensures Escape(ReplaceEscapes(s)) == s
  {
    if |s| >= 2 && s[0] == '\\' && s[1] == 'n' {
      EscapeUndoesReplace(s[2..]);
      var t := ReplaceEscapes(s[2..]);
      assert ("\n" + t)[1..] == t;
      assert s == "\\n" + s[2..];
    } else if |s| > 0 {
      EscapeUndoesReplace(s[1..]);
      var t := ReplaceEscapes(s[1..]);
      assert ([s[0]] + t)[1..] == t;
      assert s == [s[0]] + s[1..];
    }
  }

  datatype EmbedError = UnknownColour | NotOwnMessage | SendFailed

  /** The supplied fields written over `base`. `Err` when a colour was
      supplied that does not parse. */
  function Override(base: Embed, title: Option<string>, description: Option<string>,
                    imageUrl: Option<string>, colour: Option<string>, timestamp: int,
                    now: int, parseColour: string -> Option<nat>): (r: Result<Embed, EmbedError>)
    ensures r.Err? <==> Given(colour) && parseColour(colour.value).None?
    ensures r.Err? ==> r.error == UnknownColour
    ensures r.Ok? ==>
      && r.value.title == (if Given(title) then title else base.title)
      && r.value.description == (if Given(description) then Some(ReplaceEscapes(description.value)) else base.description)
      && r.value.colour == (if Given(colour) then parseColour(colour.value) else base.colour)
      && r.value.image == (if Given(imageUrl) then imageUrl else base.image)
      && r.value.timestamp == (if timestamp != 0 then Some(now) else base.timestamp)
      && r.value.footer == base.footer
      && r.value.fields == base.fields
  {
    var e := base;
    var e := if Given(title) then e.(title := title) else e;
    var e := if Given(description) then e.(description := Some(ReplaceEscapes(description.value))) else e;
    if Given(colour) && parseColour(colour.value).None? then Err(UnknownColour)
    else
      var e := if Given(colour) then e.(colour := parseColour(colour.value)) else e;
      var e := if Given(imageUrl) then e.(image := imageUrl) else e;
      var e := if timestamp != 0 then e.(timestamp := Some(now)) else e;
      Ok(e)
  }

  /** `embed`: the target channel defaults to the current one; the embed is
      built from the arguments (the title as given, the description only when
      non-empty). `delivered` is whether the platform accepted the message. */
  function SendEmbed(current: nat, channel: Option<nat>, title: Option<string>,
                     description: Option<string>, imageUrl: Option<string>,
                     colour: Option<string>, timestamp: int, now: int,
                     parseColour: string -> Option<nat>, delivered: bool): (r: Result<(nat, Embed), EmbedError>)
    ensures r.Ok? ==> r.value.0 == channel.GetOr(current)
    ensures r.Ok? ==> r.value.1.title == title
    ensures r.Ok? ==> r.value.1.description == (if Given(description) then Some(ReplaceEscapes(description.value)) else None)
    ensures Given(colour) && parseColour(colour.value).None? ==> r == Err(UnknownColour)
    ensures !delivered ==> r.Err?
    ensures !delivered && !(Given(colour) && parseColour(colour.value).None?) ==> r == Err(SendFailed)
    ensures delivered && !(Given(colour) && parseColour(colour.value).None?) ==> r.Ok?
    ensures r.Ok? ==>
      && r.value.1.colour == (if Given(colour) then parseColour(colour.value) else None)
      && r.value.1.image == (if Given(imageUrl) then imageUrl else None)
      && r.value.1.timestamp == (if timestamp != 0 then Some(now) else None)
      && r.value.1.footer == None && r.value.1.fields == []
  {
    var base := EmptyEmbed.(title := title);
    match Override(base, None, description, imageUrl, colour, timestamp, now, parseColour)
    case Err(e) => Err(e)
    case Ok(e) => if delivered then Ok((channel.GetOr(current), e)) else Err(SendFailed)
  }

  /** `edit_embed`: only messages this bot wrote; start from a copy of the
      first embed, or an empty one; write the supplied fields over it. */
  function EditEmbed(botId: nat, author: nat, embeds: seq<Embed>, title: Option<string>,
                     description: Option<string>, imageUrl: Option<string>,
                     colour: Option<string>, timestamp: int, now: int,
                     parseColour: string -> Option<nat>, delivered: bool): (r: Result<Embed, EmbedError>)
    ensures author != botId ==> r == Err(NotOwnMessage)
    ensures author == botId && Given(colour) && parseColour(colour.value).None? ==> r == Err(UnknownColour)
    ensures !delivered ==> r.Err?
    ensures author == botId && !delivered && !(Given(colour) && parseColour(colour.value).None?) ==> r == Err(SendFailed)
    ensures author == botId && delivered && !(Given(colour) && parseColour(colour.value).None?) ==> r.Ok?
    ensures r.Ok? ==>
      var base := if |embeds| > 0 then embeds[0] else EmptyEmbed;
      && r.value.title == (if Given(title) then title else base.title)
      && r.value.description == (if Given(description) then Some(ReplaceEscapes(description.value)) else base.description)
      && r.value.colour == (if Given(colour) then parseColour(colour.value) else base.colour)
      && r.value.image == (if Given(imageUrl) then imageUrl else base.image)
      && r.value.timestamp == (if timestamp != 0 then Some(now) else base.timestamp)
      && r.value.footer == base.footer
      && r.value.fields == base.fields
    ensures (author == botId && delivered && |embeds| > 0 && !Given(title) && !Given(description)
             && !Given(imageUrl) && !Given(colour) && timestamp == 0) ==> r == Ok(embeds[0])
  {
    if author != botId then Err(NotOwnMessage)
    else
      var base := if |embeds| > 0 then embeds[0] else EmptyEmbed;
      match Override(base, title, description, imageUrl, colour, timestamp, now, parseColour)
      case Err(e) => Err(e)
      case Ok(e) => if delivered then Ok(e) else Err(SendFailed)
  }

  /** Editing a freshly sent embed with the arguments it was sent with
      changes nothing: every field the edit writes already holds the value
      the send gave it. */
  lemma EditWithSendArgumentsKeepsEmbed(botId: nat, current: nat, channel: Option<nat>, title: Option<string>,
                                        description: Option<string>, imageUrl: Option<string>,
                                        colour: Option<string>, timestamp: int, now: int,
                                        parseColour: string -> Option<nat>)
    requires SendEmbed(current, channel, title, description, imageUrl, colour, timestamp, now, parseColour, true).Ok?
    ensures var sent := SendEmbed(current, channel, title, description, imageUrl, colour, timestamp, now,
                                  parseColour, true).value.1;
            EditEmbed(botId, botId, [sent], title, description, imageUrl, colour, timestamp, now,
                      parseColour, true) == Ok(sent)
  {
  }
}

=== FILE: general.dfy ===
/** The pure parts of cogs/general.py: `duration_to_str`, the `selfmute`
    limit, the `np` progress line, the `whois` role list, the pronouns
    opinion table and entry lines, and the `debate` role toggle. */
module General {
  import opened Wrappers
  import opened Text
  import opened Utils
  import Timedelta

  /** `f"{n:02}"` for 0 <= n < 100: two digits, zero-padded. */
  function Pad2(n: nat): (s: string)
    requires n < 100
    ensures |s| == 2 && AllDigits(s)
  {
    if n < 10 then "0" + NatToString(n) else NatToString(n)
  }

  lemma Pad2Reads(n: nat)
    requires n < 100
    ensures ParseNat(Pad2(n)) == n
  {
    var s := Pad2(n);
    ParseNatToString(n);
    if n < 10 {
      assert s[..1] == "0";
      assert ParseNat(s) == ParseNat("0") * 10 + DigitValue(s[1]);
    }
  }

  /** `duration_to_str` on a whole number of seconds: `m:ss`. Python's
      `divmod` by 60 floors, which is what Dafny's `/` and `%` do for a
      positive divisor. */
  function DurationToStr(t: int): string {
    IntToString(t / 60) + ":" + Pad2(t % 60)
  }

  /** The text splits at its third-last character into minutes and a
      two-digit seconds field below 60, and minutes * 60 + seconds is the
      input: the text can be read back. */
  lemma DurationToStrReadsBack(t: int)
    ensures var s := DurationToStr(t);
            && |s| >= 4 && s[|s| - 3] == ':'
            && AllDigits(s[|s| - 2..]) && IntText(s[..|s| - 3])
            && ParseNat(s[|s| - 2..]) < 60
            && ParseInt(s[..|s| - 3]) * 60 + ParseNat(s[|s| - 2..]) == t
  {
    var s := DurationToStr(t);
    var m := IntToString(t / 60);
    assert s[..|s| - 3] == m;
    assert s[|s| - 2..] == Pad2(t % 60);
    ParseIntToString(t / 60);
    Pad2Reads(t % 60);
  }

  /** The `unit` choices of `selfmute`, with `DATE_SCALE` in minutes. */
  datatype TimeUnit = InMinutes | InHours | InDays | InWeeks

  function DateScale(u: TimeUnit): nat {
    match u
    case InMinutes => 1
    case InHours => 60
    case InDays => 60 * 24
    case InWeeks => 60 * 24 * 7
  }

  /** `Overflow`: building the timedelta raised `OverflowError`, which ends
      the command without a reply. */
  datatype SelfMuteReply = TooLong | MuteFor(minutes: int) | Overflow

  /** `timedelta(minutes=m).days`: whole days, floored. */
  function DeltaDays(minutes: int): int {
    Timedelta.Days(minutes * 60)
  }

  /** The longest timeout, in minutes: 28 days. */
  const MaxTimeoutMinutes: nat := 28 * 24 * 60

  /** `selfmute` as written: the timedelta is built first, so a request
      beyond its range raises; then it rejects only when the whole-day part
      of the requested time exceeds 28, that is exactly when the request is
      29 days or more, so anything up to 28 days 23:59 gets through. */
  function SelfMuteAsWritten(time: int, unit: TimeUnit): (r: SelfMuteReply)
    ensures r.Overflow? <==> !Timedelta.Fits(time * DateScale(unit) * 60)
    ensures r.TooLong? <==> Timedelta.Fits(time * DateScale(unit) * 60) && time * DateScale(unit) >= 29 * 24 * 60
    ensures r.MuteFor? ==> r.minutes == time * DateScale(unit)
  {
    var minutes := time * DateScale(unit);
    if !Timedelta.Fits(minutes * 60) then Overflow
    else if DeltaDays(minutes) > 28 then TooLong
    else MuteFor(minutes)
  }

  /** 684 hours is 28.5 days; the guard lets it through although it is over the limit. */
  lemma SelfMuteAsWrittenAdmitsOverLimit()
    ensures SelfMuteAsWritten(684, InHours) == MuteFor(41040)
    ensures 41040 > MaxTimeoutMinutes
  {
  }

  /** 1440000000000 minutes is a million million days: the timedelta cannot
      hold it, so the request is left without an answer instead of being
      told the limit. */
  lemma SelfMuteAsWrittenOverflows()
    ensures SelfMuteAsWritten(1440000000000, InMinutes) == Overflow
    ensures SelfMute(1440000000000, InMinutes) == TooLong
  {
  }

  /** `selfmute` with the limit applied to the whole requested duration,
      before any timedelta is built. */
  function SelfMute(time: int, unit: TimeUnit): (r: SelfMuteReply)
    ensures r.TooLong? <==> time * DateScale(unit) > MaxTimeoutMinutes
    ensures r.MuteFor? <==> time * DateScale(unit) <= MaxTimeoutMinutes
    ensures r.MuteFor? ==> r.minutes == time * DateScale(unit)
  {
    var minutes := time * DateScale(unit);
    if minutes > MaxTimeoutMinutes then TooLong else MuteFor(minutes)
  }

  /** The two agree on every request of at most 28 days, and on every
      request of 29 days or more that a timedelta can hold; they differ only
      strictly between 28 and 29 days and beyond the timedelta range. */
  lemma SelfMuteAgreesOutsideGap(time: int, unit: TimeUnit)
    ensures (time * DateScale(unit) <= MaxTimeoutMinutes && Timedelta.Fits(time * DateScale(unit) * 60))
              || (time * DateScale(unit) >= 29 * 24 * 60 && Timedelta.Fits(time * DateScale(unit) * 60))
            <==> SelfMute(time, unit) == SelfMuteAsWritten(time, unit)
  {
  }

  /** The progress line `np` appends: the bar over the `.seconds` parts of
      the clamped progress and of the track length, then `m:ss/m:ss`. `None`
      is the division by zero for a track whose `.seconds` part is 0. */
  function NowPlayingLine(elapsed: int, duration: int): (r: Option<string>)
    ensures r.None? <==> duration % 86400 == 0
  {
    var progress := Clamp(elapsed, duration);
    match CreateBar(progress % 86400, duration % 86400, 15)
    case None => None
    case Some(bar) => Some(bar + (" " + DurationToStr(progress) + "/" + DurationToStr(duration)))
  }

  /** For a track shorter than a day the line starts with a 15-cell bar whose
      filled count is the floor of 15 * p / duration for the progress p
      clamped into [0, duration]. */
  lemma NowPlayingClamped(elapsed: int, duration: int)
    requires 0 < duration < 86400
    ensures var p := Clamp(elapsed, duration);
            var line := NowPlayingLine(elapsed, duration).value;
            && 0 <= p <= duration
            && |line| > 15 && line[15] == ' '
            && FilledCount(line[..15]) * duration <= p * 15 < (FilledCount(line[..15]) + 1) * duration
  {
    var p := Clamp(elapsed, duration);
    assert p % 86400 == p && duration % 86400 == duration;
    BarShape(p, duration, 15);
    var bar := CreateBar(p, duration, 15).value;
    var tail := " " + DurationToStr(p) + "/" + DurationToStr(duration);
    assert NowPlayingLine(elapsed, duration) == Some(bar + tail);
    PrefixThenTail(bar, tail);
  }

  lemma PrefixThenTail(a: string, t: string)
    requires |t| > 0
    ensures (a + t)[..|a|] == a && (a + t)[|a|] == t[0]
  {
  }

  function Reverse<T>(s: seq<T>): (r: seq<T>)
    ensures |r| == |s|
  {
    if |s| == 0 then [] else Reverse(s[1..]) + [s[0]]
  }

  /** `whois`: `roles[:0:-1]` and `len(roles) - 1`. */
  function WhoisRoles<T>(roles: seq<T>): (seq<T>, int) {
    (seq(if |roles| > 0 then |roles| - 1 else 0, i requires 0 <= i < |roles| - 1 => roles[|roles| - 1 - i]),
     |roles| - 1)
  }

  lemma {:induction false} ReverseIndex<T>(s: seq<T>)
    ensures forall i :: 0 <= i < |s| ==> Reverse(s)[i] == s[|s| - 1 - i]
  {
    if |s| > 0 {
      ReverseIndex(s[1..]);
      var r := Reverse(s);
      forall i | 0 <= i < |s| ensures r[i] == s[|s| - 1 - i] {
        if i < |s| - 1 {
          assert r[i] == Reverse(s[1..])[i];
        }
      }
    }
  }

  /** The listed roles are all but the first (@everyone), highest first:
      reversing them gives back the member's roles after the first, and
      the count in the field name is their number. */
  lemma WhoisDropsFirstAndReverses<T>(roles: seq<T>)
    requires |roles| > 0
    ensures Reverse(WhoisRoles(roles).0) == roles[1..]
    ensures WhoisRoles(roles).1 == |WhoisRoles(roles).0|
  {
    var shown := WhoisRoles(roles).0;
    ReverseIndex(shown);
  }

  /** `PRONOUNS_PAGE_BASE_OPINIONS` */
  const BaseOpinions: map<string, string> := map[
    "yes" := "\U{2764}\U{FE0F}",
    "meh" := "\U{1F44D}",
    "close" := "\U{1FAC2}",
    "jokingly" := "\U{1F61B}",
    "no" := "\U{1F44E}"]

  /** A copy of the base table updated with the profile's custom opinions,
      each shown as its description in brackets. */
  function MergeOpinions(base: map<string, string>, custom: map<string, string>): (r: map<string, string>)
    ensures r.Keys == base.Keys + custom.Keys
    ensures forall k :: k in custom ==> r[k] == "[" + custom[k] + "]"
    ensures forall k :: k in base && k !in custom ==> r[k] == base[k]
  {
    base + map k | k in custom :: "[" + custom[k] + "]"
  }

  datatype ProfileEntry = ProfileEntry(value: string, opinion: string)

  function EntryLine(e: ProfileEntry, opinions: map<string, string>): string
    requires e.opinion in opinions
  {
    opinions[e.opinion] + " " + e.value + "\n"
  }

  /** The "Names" or "Pronouns" field text: one line per entry in input
      order. `None` is the `KeyError` for an opinion missing from the table. */
  function RenderEntries(entries: seq<ProfileEntry>, opinions: map<string, string>): (r: Option<string>)
    ensures r.Some? <==> forall i :: 0 <= i < |entries| ==> entries[i].opinion in opinions
  {
    if |entries| == 0 then Some("")
    else if entries[0].opinion !in opinions then None
    else match RenderEntries(entries[1..], opinions)
      case None => None
      case Some(rest) => Some(EntryLine(entries[0], opinions) + rest)
  }

  /** The rendered text is the entries' lines concatenated in input order,
      and it is empty (so the field is left out) exactly when there are no entries. */
  lemma {:induction false} RenderEntriesInOrder(entries: seq<ProfileEntry>, opinions: map<string, string>)
    requires forall i :: 0 <= i < |entries| ==> entries[i].opinion in opinions
    ensures RenderEntries(entries, opinions) ==
            Some(Concat(seq(|entries|, i requires 0 <= i < |entries| => EntryLine(entries[i], opinions))))
    ensures RenderEntries(entries, opinions) == Some("") <==> |entries| == 0
  {
    if |entries| > 0 {
      RenderEntriesInOrder(entries[1..], opinions);
      var lines := seq(|entries|, i requires 0 <= i < |entries| => EntryLine(entries[i], opinions));
      assert lines[1..] == seq(|entries| - 1, i requires 0 <= i < |entries| - 1 => EntryLine(entries[1..][i], opinions));
    }
  }

  datatype DebateReply = Restricted | Joined | Left

  /** `debate`: with the ban role nothing changes; otherwise the debate role
      is added when absent and removed when present. */
  function DebateToggle(roles: set<nat>, banRole: nat, debateRole: nat): (r: (set<nat>, DebateReply))
    ensures banRole in roles ==> r == (roles, Restricted)
    ensures banRole !in roles ==> (debateRole in r.0 <==> debateRole !in roles)
    ensures r.0 - {debateRole} == roles - {debateRole}
  {
    if banRole in roles then (roles, Restricted)
    else if debateRole !in roles then (roles + {debateRole}, Joined)
    else (roles - {debateRole}, Left)
  }

  /** Toggling twice restores the original roles. */
  lemma DebateToggleTwice(roles: set<nat>, banRole: nat, debateRole: nat)
    requires banRole != debateRole
    ensures DebateToggle(DebateToggle(roles, banRole, debateRole).0, banRole, debateRole).0 == roles
  {
  }
}

=== FILE: ledger.dfy ===
/** The moderation case ledger: the `mod_logs_case` counter document and the
    `mod_logs` collection (cogs/moderation.py `insert_modlog`, the lookups
    of `getcase`/`removecase`, and the per-user queries of the listings).
    The document store is an in-memory value: counters are a map from the
    counter's `_id` to its `value`, and the collection is a sequence in
    insertion (natural) order. */
module Ledger {
  import opened Wrappers

  type UserId = nat

  /** The `type` field of a case. */
  datatype Kind = Timeout | Warn | Ban | Note

  /** One `mod_logs` document. The store keeps `user` and `mod` as decimal
      text; here they are the numbers that text spells. `duration` is the
      length in whole seconds; `timestamp` is seconds on the UTC clock. */
  datatype Case = Case(
    number: int,
    user: UserId,
    mod: UserId,
    kind: Kind,
    reason: Option<string>,
    duration: Option<nat>,
    timestamp: int)

  datatype Store = Store(counters: map<string, int>, logs: seq<Case>)

  const CaseCounter: string := "mod_logs_case"

  /** Why `insert_modlog` raised. `NoCounterDocument`: the counter update has
      no upsert, so a missing counter document yields `None` and indexing it
      fails. `DurationNotStorable`: a zero-length timedelta is falsy, so it is
      not converted to seconds and the store cannot encode it. */
  datatype InsertError = NoCounterDocument | DurationNotStorable

  /** `insert_modlog`: take the counter's value as the case number, leave the
      counter one higher, and append the record. The counter is bumped before
      the insert, so a failing insert still uses up a number. */
  function InsertModlog(st: Store, user: UserId, mod: UserId, kind: Kind, reason: Option<string>,
                        duration: Option<nat>, now: int): (out: (Store, Result<Case, InsertError>))
    ensures CaseCounter !in st.counters ==> out == (st, Err(NoCounterDocument))
    ensures CaseCounter in st.counters ==>
              out.0.counters == st.counters[CaseCounter := st.counters[CaseCounter] + 1]
    ensures out.1.Ok? ==>
              var c := out.1.value;
              && c.number == st.counters[CaseCounter]
              && c.user == user && c.mod == mod && c.kind == kind && c.reason == reason
              && c.duration == duration && c.timestamp == now
              && out.0.logs == st.logs + [c]
    ensures out.1.Err? ==> out.0.logs == st.logs
    ensures out.1 == Err(DurationNotStorable) <==> CaseCounter in st.counters && duration == Some(0)
  {
    if CaseCounter !in st.counters then (st, Err(NoCounterDocument))
    else
      var n := st.counters[CaseCounter];
      var counters' := st.counters[CaseCounter := n + 1];
      if duration == Some(0) then (st.(counters := counters'), Err(DurationNotStorable))
      else
        var c := Case(n, user, mod, kind, reason, duration, now);
        (Store(counters', st.logs + [c]), Ok(c))
  }

  /** The counters after one `insert_modlog` call: the case counter one
      higher, or nothing changed when there is no counter document. */
  function Bumped(st: Store): map<string, int> {
    if CaseCounter in st.counters then st.counters[CaseCounter := st.counters[CaseCounter] + 1] else st.counters
  }

  /** Every stored case number is below the counter and no two cases share one. */
  ghost predicate WellFormed(st: Store) {
    && CaseCounter in st.counters
    && (forall i :: 0 <= i < |st.logs| ==> st.logs[i].number < st.counters[CaseCounter])
    && DistinctNumbers(st.logs)
  }

  predicate DistinctNumbers(logs: seq<Case>) {
    forall i, j :: 0 <= i < j < |logs| ==> logs[i].number != logs[j].number
  }

  /** Position of the first case with number `n` (what `find_one({"case": n})` returns). */
  function FindIndex(logs: seq<Case>, n: int): (r: Option<nat>)
    ensures r.None? <==> forall i :: 0 <= i < |logs| ==> logs[i].number != n
    ensures r.Some? ==> r.value < |logs| && logs[r.value].number == n
                        && forall i :: 0 <= i < r.value ==> logs[i].number != n
  {
    if |logs| == 0 then None
    else if logs[0].number == n then Some(0)
    else match FindIndex(logs[1..], n)
      case None => None
      case Some(k) => Some(k + 1)
  }

  function FindCase(logs: seq<Case>, n: int): (r: Option<Case>)
    ensures r.Some? ==> r.value in logs && r.value.number == n
    ensures r.None? <==> forall c :: c in logs ==> c.number != n
  {
    match FindIndex(logs, n)
    case None => None
    case Some(k) => Some(logs[k])
  }

  /** `delete_one` by the document's own id: remove exactly the entry at `k`. */
  function DeleteAt(logs: seq<Case>, k: nat): (r: seq<Case>)
    requires k < |logs|
    ensures |r| == |logs| - 1
    ensures multiset(r) + multiset{logs[k]} == multiset(logs)
    ensures forall i :: 0 <= i < k ==> r[i] == logs[i]
    ensures forall i :: k <= i < |r| ==> r[i] == logs[i + 1]
  {
    assert logs == logs[..k] + [logs[k]] + logs[k + 1..];
    logs[..k] + logs[k + 1..]
  }

  /** Inserting keeps the ledger well formed. */
  lemma InsertPreservesWellFormed(st: Store, user: UserId, mod: UserId, kind: Kind, reason: Option<string>,
                                  duration: Option<nat>, now: int)
    requires WellFormed(st)
    ensures WellFormed(InsertModlog(st, user, mod, kind, reason, duration, now).0)
  {
  }

  /** A recorded case is found again by its number, and it is the record returned. */
  lemma InsertThenFind(st: Store, user: UserId, mod: UserId, kind: Kind, reason: Option<string>,
                       duration: Option<nat>, now: int)
    requires WellFormed(st)
    ensures var out := InsertModlog(st, user, mod, kind, reason, duration, now);
            out.1.Ok? ==> FindCase(out.0.logs, out.1.value.number) == Some(out.1.value)
  {
    var out := InsertModlog(st, user, mod, kind, reason, duration, now);
    if out.1.Ok? {
      var c := out.1.value;
      assert forall i :: 0 <= i < |st.logs| ==> out.0.logs[i].number != c.number;
      assert out.0.logs[|st.logs|] == c;
    }
  }

  /** Two inserts in a row get consecutive numbers, in order. */
  lemma SuccessiveInsertsConsecutive(st: Store, u1: UserId, m1: UserId, k1: Kind, r1: Option<string>,
                                     d1: Option<nat>, t1: int, u2: UserId, m2: UserId, k2: Kind,
                                     r2: Option<string>, d2: Option<nat>, t2: int)
    requires CaseCounter in st.counters
    ensures var a := InsertModlog(st, u1, m1, k1, r1, d1, t1);
            var b := InsertModlog(a.0, u2, m2, k2, r2, d2, t2);
            && b.0.counters[CaseCounter] == st.counters[CaseCounter] + 2
            && (a.1.Ok? && b.1.Ok? ==> b.1.value.number == a.1.value.number + 1)
  {
  }

  /** In a well-formed ledger the case found by number is the only one with it. */
  lemma FoundCaseIsUnique(logs: seq<Case>, n: int, k: nat)
    requires DistinctNumbers(logs)
    requires FindIndex(logs, n) == Some(k)
    ensures forall i :: 0 <= i < |logs| && i != k ==> logs[i].number != n
  {
  }

  /** Deleting the found case leaves no case with that number in a well-formed
      ledger, and keeps the rest well formed. */
  lemma DeleteFoundRemovesNumber(st: Store, n: int, k: nat)
    requires WellFormed(st)
    requires FindIndex(st.logs, n) == Some(k)
    ensures FindCase(DeleteAt(st.logs, k), n) == None
    ensures WellFormed(st.(logs := DeleteAt(st.logs, k)))
  {
    var r := DeleteAt(st.logs, k);
    forall i | 0 <= i < |r| ensures r[i].number != n {
      if i < k { assert r[i] == st.logs[i]; } else { assert r[i] == st.logs[i + 1]; }
    }
    forall i, j | 0 <= i < j < |r| ensures r[i].number != r[j].number {
      var i' := if i < k then i else i + 1;
      var j' := if j < k then j else j + 1;
      assert r[i] == st.logs[i'] && r[j] == st.logs[j'] && i' < j';
    }
  }

  /** --- ordering by case number ----------------------------------------- */

  predicate SortedByNumber(s: seq<Case>) {
    forall i, j :: 0 <= i < j < |s| ==> s[i].number <= s[j].number
  }

  function InsertSorted(c: Case, s: seq<Case>): (r: seq<Case>)
    requires SortedByNumber(s)
    ensures SortedByNumber(r)
    ensures multiset(r) == multiset(s) + multiset{c}
    ensures forall x :: x in r ==> x == c || x in s
  {
    if |s| == 0 then [c]
    else if c.number <= s[0].number then [c] + s
    else
      var rest := InsertSorted(c, s[1..]);
      assert s == [s[0]] + s[1..];
      HeadBelowRest(c, s, rest);
      [s[0]] + rest
  }

  /** The head of a sorted list numbers no higher than anything inserted
      after it. */
  lemma HeadBelowRest(c: Case, s: seq<Case>, rest: seq<Case>)
    requires SortedByNumber(s) && |s| > 0 && s[0].number < c.number
    requires forall x :: x in rest ==> x == c || x in s[1..]
    ensures forall j :: 0 <= j < |rest| ==> s[0].number <= rest[j].number
  {
    forall j | 0 <= j < |rest| ensures s[0].number <= rest[j].number {
      assert rest[j] in rest;
      if rest[j] != c {
        var k :| 0 <= k < |s[1..]| && s[1..][k] == rest[j];
        assert s[k + 1] == rest[j];
      }
    }
  }

  /** `.sort("case", 1)`: the same cases, by ascending case number. */
  function SortByNumber(s: seq<Case>): (r: seq<Case>)
    ensures SortedByNumber(r)
    ensures multiset(r) == multiset(s)
  {
    if |s| == 0 then []
    else
      assert s == [s[0]] + s[1..];
      InsertSorted(s[0], SortByNumber(s[1..]))
  }
}

=== FILE: listing.dfy ===
/** The per-user case listings shared by `modlogs` (cogs/moderation.py and
    cogs/modlogs.py), `viewnotes` and `mymodlogs`: count the matching cases,
    sort them by case number, skip all but the last 25, flag expired ones,
    and report how many older ones were left out. Only what decides the
    embed's content is modelled: which cases appear, in which order, which
    carry the expiry marker, and the omitted count in the footer. */
module Listing {
  import opened Wrappers
  import opened Ledger

  /** A Discord embed holds at most 25 fields. */
  const EmbedFieldLimit: nat := 25

  /** The `type` part of the query. */
  datatype Filter = AllKinds | NotesOnly | ExceptNotes

  /** Which cases get the `--EXPIRED--` line. */
  datatype Marking = NoMarking | MarkUnlessNote | MarkAll

  predicate Passes(c: Case, f: Filter) {
    match f
    case AllKinds => true
    case NotesOnly => c.kind == Note
    case ExceptNotes => c.kind != Note
  }

  predicate Matches(c: Case, user: UserId, f: Filter) {
    c.user == user && Passes(c, f)
  }

  /** `find(query)` in natural order. */
  function Query(logs: seq<Case>, user: UserId, f: Filter): (r: seq<Case>)
    ensures forall c :: c in r <==> c in logs && Matches(c, user, f)
    ensures |r| <= |logs|
  {
    if |logs| == 0 then []
    else (if Matches(logs[0], user, f) then [logs[0]] else []) + Query(logs[1..], user, f)
  }

  /** The case's age has reached the retention window (inclusive). */
  predicate IsExpired(c: Case, now: int, expiration: int) {
    now - c.timestamp >= expiration
  }

  function Marked(c: Case, m: Marking, now: int, expiration: int): bool {
    match m
    case NoMarking => false
    case MarkUnlessNote => c.kind != Note && IsExpired(c, now, expiration)
    case MarkAll => IsExpired(c, now, expiration)
  }

  /** `cases.skip(case_count - 25)` when there are more than 25. */
  function LastWindow(s: seq<Case>): (r: seq<Case>)
    ensures |r| == if |s| > EmbedFieldLimit then EmbedFieldLimit else |s|
    ensures r == s[|s| - |r|..]
  {
    if |s| > EmbedFieldLimit then s[|s| - EmbedFieldLimit..] else s
  }

  datatype Field = Field(entry: Case, expired: bool)

  /** The embed: either "no associated logs", or one field per shown case
      and, when some were skipped, a footer with how many. */
  datatype Listing = NoLogs | Fields(fields: seq<Field>, omitted: Option<nat>)

  function ToFields(s: seq<Case>, m: Marking, now: int, expiration: int): (r: seq<Field>)
    ensures |r| == |s|
    ensures forall i :: 0 <= i < |s| ==> r[i] == Field(s[i], Marked(s[i], m, now, expiration))
  {
    seq(|s|, i requires 0 <= i < |s| => Field(s[i], Marked(s[i], m, now, expiration)))
  }

  /** All matching cases, in the order the listing sorts them. */
  function Sorted(logs: seq<Case>, user: UserId, f: Filter): seq<Case> {
    SortByNumber(Query(logs, user, f))
  }

  /** `l` shows the last min(|all|, 25) of `all`, in order, and a footer
      saying |all| - 25 were omitted exactly when there are more than 25. */
  predicate ShowsLastWindow(l: Listing, all: seq<Case>) {
    var n := |all|;
    && (l.NoLogs? <==> n == 0)
    && (l.Fields? ==>
          && |l.fields| == (if n > EmbedFieldLimit then EmbedFieldLimit else n)
          && (forall i :: 0 <= i < |l.fields| ==> l.fields[i].entry == all[n - |l.fields| + i])
          && l.omitted == (if n > EmbedFieldLimit then Some(n - EmbedFieldLimit) else None))
  }

  /** The embed for the matching cases `all`, already sorted. */
  function Build(all: seq<Case>, m: Marking, now: int, expiration: int): (l: Listing)
    ensures ShowsLastWindow(l, all)
    ensures l.Fields? ==> forall i :: 0 <= i < |l.fields| ==> l.fields[i].expired == Marked(l.fields[i].entry, m, now, expiration)
  {
    var count := |all|;
    if count > 0 then
      Fields(ToFields(LastWindow(all), m, now, expiration),
             if count > EmbedFieldLimit then Some(count - EmbedFieldLimit) else None)
    else NoLogs
  }

  /** One listing command. */
  function UserListing(logs: seq<Case>, user: UserId, f: Filter, m: Marking, now: int, expiration: int): Listing {
    Build(Sorted(logs, user, f), m, now, expiration)
  }

  /** How many documents `count_documents(query)` reports. */
  function Count(logs: seq<Case>, user: UserId, f: Filter): nat {
    |Query(logs, user, f)|
  }

  /** Sorting keeps the count. */
  lemma SortedCount(logs: seq<Case>, user: UserId, f: Filter)
    ensures |Sorted(logs, user, f)| == Count(logs, user, f)
  {
    var q := Query(logs, user, f);
    assert |multiset(SortByNumber(q))| == |multiset(q)|;
  }

  /** The listing shows the min(count, 25) last matching cases in ascending
      case-number order, and a footer saying count - 25 were omitted exactly
      when count > 25. */
  lemma ListingIsLastWindow(logs: seq<Case>, user: UserId, f: Filter, m: Marking, now: int, expiration: int)
    ensures |Sorted(logs, user, f)| == Count(logs, user, f)
    ensures ShowsLastWindow(UserListing(logs, user, f, m, now, expiration), Sorted(logs, user, f))
  {
    SortedCount(logs, user, f);
  }

  /** What every listing command promises its caller: at most 25 fields,
      "no logs" iff nothing matched, the omitted count iff more than 25
      matched, and every field a matching case flagged by the marking rule. */
  lemma UserListingFacts(logs: seq<Case>, user: UserId, f: Filter, m: Marking, now: int, expiration: int)
    ensures var l := UserListing(logs, user, f, m, now, expiration);
            var count := Count(logs, user, f);
            && (l.NoLogs? <==> count == 0)
            && (l.Fields? ==> |l.fields| <= EmbedFieldLimit
                              && l.omitted == (if count > EmbedFieldLimit then Some(count - EmbedFieldLimit) else None))
            && (l.Fields? ==> forall i :: 0 <= i < |l.fields| ==>
                  Matches(l.fields[i].entry, user, f) && l.fields[i].expired == Marked(l.fields[i].entry, m, now, expiration))
  {
    ListingIsLastWindow(logs, user, f, m, now, expiration);
    WindowBound(UserListing(logs, user, f, m, now, expiration), Sorted(logs, user, f));
    ListingOnlyMatching(logs, user, f, m, now, expiration);
  }

  /** The footer arithmetic of a window: at most 25 fields, the omitted count
      exactly when more than 25 cases exist. */
  lemma WindowBound(l: Listing, all: seq<Case>)
    requires ShowsLastWindow(l, all)
    ensures l.NoLogs? <==> |all| == 0
    ensures l.Fields? ==> |l.fields| <= EmbedFieldLimit
                          && l.omitted == (if |all| > EmbedFieldLimit then Some(|all| - EmbedFieldLimit) else None)
  {
  }

  /** Only cases of the user that pass the filter are listed, in ascending order. */
  lemma ListingOnlyMatching(logs: seq<Case>, user: UserId, f: Filter, m: Marking, now: int, expiration: int)
    ensures var l := UserListing(logs, user, f, m, now, expiration);
            l.Fields? ==>
              && (forall i :: 0 <= i < |l.fields| ==> l.fields[i].entry in logs && Matches(l.fields[i].entry, user, f))
              && (forall i, j :: 0 <= i < j < |l.fields| ==> l.fields[i].entry.number <= l.fields[j].entry.number)
  {
    var all := Sorted(logs, user, f);
    var q := Query(logs, user, f);
    var l := UserListing(logs, user, f, m, now, expiration);
    if l.Fields? {
      var w := LastWindow(all);
      forall i | 0 <= i < |l.fields| ensures l.fields[i].entry in logs && Matches(l.fields[i].entry, user, f) {
        assert l.fields[i].entry == w[i];
        assert w[i] in all;
        assert w[i] in multiset(all);
        assert w[i] in q;
      }
    }
  }

  /** The listed cases are the highest-numbered ones: a matching case that
      is not shown has a number no larger than any shown case. */
  lemma ListingKeepsHighestNumbers(logs: seq<Case>, user: UserId, f: Filter, m: Marking, now: int,
                                   expiration: int, c: Case)
    requires c in logs && Matches(c, user, f)
    ensures var l := UserListing(logs, user, f, m, now, expiration);
            && l.Fields?
            && ((forall i :: 0 <= i < |l.fields| ==> l.fields[i].entry != c) ==>
                  forall i :: 0 <= i < |l.fields| ==> c.number <= l.fields[i].entry.number)
  {
    var q := Query(logs, user, f);
    var all := Sorted(logs, user, f);
    assert c in q;
    assert c in multiset(all);
    WindowHoldsHighest(UserListing(logs, user, f, m, now, expiration), all, c);
  }

  /** In a sorted list, a case left out of the last window numbers no higher
      than any case in it. */
  lemma WindowHoldsHighest(l: Listing, all: seq<Case>, c: Case)
    requires SortedByNumber(all) && ShowsLastWindow(l, all) && c in all
    ensures l.Fields?
    ensures (forall i :: 0 <= i < |l.fields| ==> l.fields[i].entry != c) ==>
              forall i :: 0 <= i < |l.fields| ==> c.number <= l.fields[i].entry.number
  {
    var p :| 0 <= p < |all| && all[p] == c;
    var start := |all| - |l.fields|;
    if p < start {
      forall i | 0 <= i < |l.fields| ensures c.number <= l.fields[i].entry.number {
        assert l.fields[i].entry == all[start + i];
      }
    } else {
      assert l.fields[p - start].entry == c;
    }
  }
}

=== FILE: moderation.dfy ===
/** The moderation commands of cogs/moderation.py that change or read the
    ledger: `warn`, `addnote`, `mute`, `ban`, `removecase` and `modlogs`.
    Messages to users and the moderator are left out; what remains is the
    decision each command takes and the ledger it leaves behind. Calls into
    the chat platform whose failure the command handles (`timeout_for`,
    `guild.ban`) become boolean parameters saying whether they succeeded. */
module Moderation {
  import opened Wrappers
  import opened Text
  import opened Permissions
  import opened Ledger
  import opened Listing
  import Timedelta

  /** The guild as far as these commands look at it: its owner and the
      member cache, keyed by integer user id. */
  datatype Guild = Guild(ownerId: nat, members: map<int, Member>)

  /** A Python value used as a dictionary key: an `int` or a `str`. */
  datatype LookupKey = IntKey(i: int) | TextKey(s: string)

  /** `guild.get_member(key)`: a lookup in the int-keyed member cache. A
      string never equals an int in Python, so a text key finds no one. */
  function GetMember(g: Guild, key: LookupKey): (r: Option<Member>)
    ensures key.TextKey? ==> r == None
    ensures key.IntKey? ==> (r.Some? <==> key.i in g.members)
    ensures r.Some? ==> r.value == g.members[key.i]
  {
    match key
    case IntKey(i) => if i in g.members then Some(g.members[i]) else None
    case TextKey(_) => None
  }

  /** Why a command stops before the ledger changes. `DurationOverflow` is
      the `OverflowError` of a timedelta too long to represent: unlike the
      others it is not answered, the command just ends. */
  datatype Refusal = CannotModerate | InvalidDuration | DurationOverflow | TimeoutForbidden | UnableToBan | CaseNotFound

  /** What a command reports, beside the ledger it leaves. */
  datatype Outcome =
    | Refused(why: Refusal)
    | Logged(entry: Case)
    | LogFailed(err: InsertError)
    | BanFailed(entry: Case)
    | Removed(entry: Case)

  function Record(st: Store, user: UserId, mod: UserId, kind: Kind, reason: Option<string>,
                  duration: Option<nat>, now: int): (Store, Outcome)
  {
    var (st', r) := InsertModlog(st, user, mod, kind, reason, duration, now);
    match r
    case Ok(c) => (st', Logged(c))
    case Err(e) => (st', LogFailed(e))
  }

  /** `warn`: refuse unless the actor may moderate the target, then log a warning. */
  function WarnMember(st: Store, g: Guild, actor: Member, target: Member, reason: string, now: int): (out: (Store, Outcome))
    ensures !CanModerateUser(actor, target, g.ownerId) ==> out == (st, Refused(CannotModerate))
    ensures CanModerateUser(actor, target, g.ownerId) ==> out.0.counters == Bumped(st)
    ensures CanModerateUser(actor, target, g.ownerId) && CaseCounter in st.counters ==>
              out.1.Logged? && out.1.entry == Case(st.counters[CaseCounter], target.id, actor.id, Warn, Some(reason), None, now)
              && out.0.logs == st.logs + [out.1.entry]
    ensures CaseCounter !in st.counters ==> out.0 == st && !out.1.Logged?
  {
    if !CanModerateUser(actor, target, g.ownerId) then (st, Refused(CannotModerate))
    else Record(st, target.id, actor.id, Warn, Some(reason), None, now)
  }

  /** `addnote`: no hierarchy check; log a note. */
  function AddNote(st: Store, actor: Member, target: Member, note: string, now: int): (out: (Store, Outcome))
    ensures out.0.counters == Bumped(st)
    ensures CaseCounter in st.counters ==>
              out.1.Logged? && out.1.entry == Case(st.counters[CaseCounter], target.id, actor.id, Note, Some(note), None, now)
              && out.0.logs == st.logs + [out.1.entry]
    ensures CaseCounter !in st.counters ==> out.0 == st && !out.1.Logged?
  {
    Record(st, target.id, actor.id, Note, Some(note), None, now)
  }

  /** The `units` choices of `mute`, in seconds. */
  datatype MuteUnit = Minutes | Hours | Days

  function UnitSeconds(u: MuteUnit): nat {
    match u
    case Minutes => 60
    case Hours => 60 * 60
    case Days => 24 * 60 * 60
  }

  /** `mute`'s duration check: a count below 1 is invalid; otherwise the
      timeout lasts count times the unit, unless that is too long for a
      timedelta. */
  function MuteLength(duration: int, units: MuteUnit): (r: Result<nat, Refusal>)
    ensures r == Err(InvalidDuration) <==> duration < 1
    ensures r == Err(DurationOverflow) <==> duration >= 1 && !Timedelta.Fits(duration * UnitSeconds(units))
    ensures r.Ok? <==> duration >= 1 && Timedelta.Fits(duration * UnitSeconds(units))
    ensures r.Ok? ==> r.value == duration * UnitSeconds(units) && r.value >= 60
  {
    if duration < 1 then Err(InvalidDuration)
    else if !Timedelta.Fits(duration * UnitSeconds(units)) then Err(DurationOverflow)
    else Ok(duration * UnitSeconds(units))
  }

  /** The longest accepted mute is just under a billion days, whatever the unit. */
  lemma MuteLengthRange(duration: int, units: MuteUnit)
    ensures MuteLength(duration, units).Ok? <==> 1 <= duration && duration * UnitSeconds(units) < (Timedelta.MaxDays + 1) * 86400
  {
    Timedelta.FitsIff(duration * UnitSeconds(units));
  }

  /** `mute`: hierarchy check, duration check, apply the timeout (which the
      platform may forbid), then log it with its length in seconds. */
  function MuteMember(st: Store, g: Guild, actor: Member, target: Member, duration: int, units: MuteUnit,
                reason: Option<string>, timeoutAllowed: bool, now: int): (out: (Store, Outcome))
    ensures !CanModerateUser(actor, target, g.ownerId) ==> out == (st, Refused(CannotModerate))
    ensures CanModerateUser(actor, target, g.ownerId) && duration < 1 ==> out == (st, Refused(InvalidDuration))
    ensures out.1.Logged? ==>
              && duration >= 1 && timeoutAllowed
              && out.1.entry.kind == Timeout
              && out.1.entry.duration == Some(duration * UnitSeconds(units))
              && out.0.logs == st.logs + [out.1.entry]
    ensures !timeoutAllowed ==> out.0 == st
    ensures (CanModerateUser(actor, target, g.ownerId) && MuteLength(duration, units).Ok? && timeoutAllowed
             && CaseCounter in st.counters) ==>
              && out.1.Logged?
              && out.1.entry == Case(st.counters[CaseCounter], target.id, actor.id, Timeout, reason,
                                     Some(duration * UnitSeconds(units)), now)
              && out.0 == Store(Bumped(st), st.logs + [out.1.entry])
    ensures CanModerateUser(actor, target, g.ownerId) && MuteLength(duration, units).Err? ==>
              out == (st, Refused(MuteLength(duration, units).error))
  {
    if !CanModerateUser(actor, target, g.ownerId) then (st, Refused(CannotModerate))
    else match MuteLength(duration, units)
      case Err(why) => (st, Refused(why))
      case Ok(seconds) =>
        if !timeoutAllowed then (st, Refused(TimeoutForbidden))
        else Record(st, target.id, actor.id, Timeout, reason, Some(seconds), now)
  }

  /** `ban`: hierarchy check, then the bot's own top role must be above the
      target's; the case is logged before the ban is attempted, so it stays
      even when the ban is forbidden. */
  function BanMember(st: Store, g: Guild, actor: Member, botTopRole: Role, target: Member, reason: Option<string>,
               banAllowed: bool, now: int): (out: (Store, Outcome))
    ensures !CanModerateUser(actor, target, g.ownerId) ==> out == (st, Refused(CannotModerate))
    ensures (CanModerateUser(actor, target, g.ownerId) && RoleLe(botTopRole, target.topRole))
              ==> out == (st, Refused(UnableToBan))
    ensures out.1.Logged? || out.1.BanFailed? ==>
              && out.1.entry.kind == Ban && out.1.entry.duration == None
              && out.0.logs == st.logs + [out.1.entry]
    ensures (CanModerateUser(actor, target, g.ownerId) && RoleLt(target.topRole, botTopRole)
             && CaseCounter in st.counters) ==>
              && (if banAllowed then out.1.Logged? else out.1.BanFailed?)
              && out.1.entry == Case(st.counters[CaseCounter], target.id, actor.id, Ban, reason, None, now)
              && out.0 == Store(Bumped(st), st.logs + [out.1.entry])
    ensures out.1.BanFailed? <==> !banAllowed && CanModerateUser(actor, target, g.ownerId)
                                  && RoleLt(target.topRole, botTopRole) && CaseCounter in st.counters
  {
    if !CanModerateUser(actor, target, g.ownerId) then (st, Refused(CannotModerate))
    else if RoleLe(botTopRole, target.topRole) then (st, Refused(UnableToBan))
    else
      var (st', r) := Record(st, target.id, actor.id, Ban, reason, None, now);
      if r.Logged? && !banAllowed then (st', BanFailed(r.entry)) else (st', r)
  }

  /** `warn` keeps the ledger well formed, and a logged warning is what
      `getcase` finds under its number. */
  lemma WarnKeepsLedger(st: Store, g: Guild, actor: Member, target: Member, reason: string, now: int)
    requires WellFormed(st)
    ensures var out := WarnMember(st, g, actor, target, reason, now);
            && WellFormed(out.0)
            && (out.1.Logged? ==> FindCase(out.0.logs, out.1.entry.number) == Some(out.1.entry))
  {
    InsertPreservesWellFormed(st, target.id, actor.id, Warn, Some(reason), None, now);
    InsertThenFind(st, target.id, actor.id, Warn, Some(reason), None, now);
  }

  /** `addnote` keeps the ledger well formed, and a logged note is what
      `getcase` finds under its number. */
  lemma AddNoteKeepsLedger(st: Store, actor: Member, target: Member, note: string, now: int)
    requires WellFormed(st)
    ensures var out := AddNote(st, actor, target, note, now);
            && WellFormed(out.0)
            && (out.1.Logged? ==> FindCase(out.0.logs, out.1.entry.number) == Some(out.1.entry))
  {
    InsertPreservesWellFormed(st, target.id, actor.id, Note, Some(note), None, now);
    InsertThenFind(st, target.id, actor.id, Note, Some(note), None, now);
  }

  /** `mute` keeps the ledger well formed, and a logged timeout is what
      `getcase` finds under its number. */
  lemma MuteKeepsLedger(st: Store, g: Guild, actor: Member, target: Member, duration: int, units: MuteUnit,
                        reason: Option<string>, timeoutAllowed: bool, now: int)
    requires WellFormed(st)
    ensures var out := MuteMember(st, g, actor, target, duration, units, reason, timeoutAllowed, now);
            && WellFormed(out.0)
            && (out.1.Logged? ==> FindCase(out.0.logs, out.1.entry.number) == Some(out.1.entry))
  {
    var d := Some(duration * UnitSeconds(units));
    if duration >= 1 {
      InsertPreservesWellFormed(st, target.id, actor.id, Timeout, reason, d, now);
      InsertThenFind(st, target.id, actor.id, Timeout, reason, d, now);
    }
  }

  /** `ban` keeps the ledger well formed, and its case, logged whether or
      not the ban itself went through, is what `getcase` finds under its
      number. */
  lemma BanKeepsLedger(st: Store, g: Guild, actor: Member, botTopRole: Role, target: Member,
                       reason: Option<string>, banAllowed: bool, now: int)
    requires WellFormed(st)
    ensures var out := BanMember(st, g, actor, botTopRole, target, reason, banAllowed, now);
            && WellFormed(out.0)
            && (out.1.Logged? || out.1.BanFailed? ==> FindCase(out.0.logs, out.1.entry.number) == Some(out.1.entry))
  {
    InsertPreservesWellFormed(st, target.id, actor.id, Ban, reason, None, now);
    InsertThenFind(st, target.id, actor.id, Ban, reason, None, now);
  }

  /** What `removecase` does once it has found the case at `k` and looked up
      the member it is about. */
  function RemoveFound(st: Store, k: nat, actor: Member, g: Guild, member: Option<Member>): (Store, Outcome)
    requires k < |st.logs|
  {
    if member.Some? && !CanModerateUser(actor, member.value, g.ownerId) then (st, Refused(CannotModerate))
    else (st.(logs := DeleteAt(st.logs, k)), Removed(st.logs[k]))
  }

  /** `removecase` as written: the member is looked up with the stored
      `user` field, which is the user id as text. */
  function RemoveCaseAsWritten(st: Store, n: int, actor: Member, g: Guild): (out: (Store, Outcome))
    ensures out.0.counters == st.counters
    ensures FindCase(st.logs, n).None? ==> out == (st, Refused(CaseNotFound))
    ensures out.1.Removed? <==> FindCase(st.logs, n).Some?
    ensures out.1 != Refused(CannotModerate)
    ensures out.1.Removed? ==>
              exists k :: FindIndex(st.logs, n) == Some(k) && k < |st.logs| && out.1.entry == st.logs[k]
                          && out.0.logs == DeleteAt(st.logs, k)
    ensures !out.1.Removed? ==> out.0 == st
  {
    match FindIndex(st.logs, n)
    case None => (st, Refused(CaseNotFound))
    case Some(k) => RemoveFound(st, k, actor, g, GetMember(g, TextKey(NatToString(st.logs[k].user))))
  }

  /** `removecase` with the lookup by integer id, as `mod_case_embed` does it. */
  function RemoveCase(st: Store, n: int, actor: Member, g: Guild): (out: (Store, Outcome))
    ensures out.0.counters == st.counters
    ensures FindCase(st.logs, n).None? ==> out == (st, Refused(CaseNotFound))
    ensures out.1.Removed? <==>
              && FindCase(st.logs, n).Some?
              && var u := FindCase(st.logs, n).value.user;
                 u !in g.members || CanModerateUser(actor, g.members[u], g.ownerId)
    ensures out.1.Removed? ==>
              exists k :: FindIndex(st.logs, n) == Some(k) && k < |st.logs| && out.1.entry == st.logs[k]
                          && out.0.logs == DeleteAt(st.logs, k)
    ensures !out.1.Removed? ==> out.0 == st
  {
    match FindIndex(st.logs, n)
    case None => (st, Refused(CaseNotFound))
    case Some(k) => RemoveFound(st, k, actor, g, GetMember(g, IntKey(st.logs[k].user)))
  }

  /** The two lookups lead to different results exactly when the integer
      lookup finds a member the actor may not moderate: the code as written
      deletes such a case, the corrected command refuses. */
  lemma RemoveCaseAsWrittenDiffers(st: Store, n: int, actor: Member, g: Guild)
    ensures RemoveCaseAsWritten(st, n, actor, g) != RemoveCase(st, n, actor, g)
            <==> RemoveCase(st, n, actor, g).1 == Refused(CannotModerate)
    ensures RemoveCase(st, n, actor, g).1 == Refused(CannotModerate) ==>
              RemoveCaseAsWritten(st, n, actor, g).1.Removed?
  {
  }

  /** In a well-formed ledger, a removal takes the number out of the ledger
      and leaves the ledger well formed. */
  lemma RemoveCaseKeepsWellFormed(st: Store, n: int, actor: Member, g: Guild)
    requires WellFormed(st)
    ensures var out := RemoveCase(st, n, actor, g);
            WellFormed(out.0) && (out.1.Removed? ==> FindCase(out.0.logs, n) == None)
  {
    var out := RemoveCase(st, n, actor, g);
    if out.1.Removed? {
      DeleteFoundRemovesNumber(st, n, FindIndex(st.logs, n).value);
    }
  }

  /** The input that shows the difference: case 1 is about member 7, who
      outranks member 5; member 5 runs `removecase 1`. As written the case is
      deleted; with the integer lookup it is refused. */
  lemma RemoveCaseAsWrittenIgnoresHierarchy()
    ensures var c := Case(1, 7, 9, Warn, Some("spam"), None, 0);
            var st := Store(map[CaseCounter := 2], [c]);
            var actor := Member(5, false, Role(1, 100));
            var target := Member(7, false, Role(3, 101));
            var g := Guild(1, map[5 := actor, 7 := target]);
            && RemoveCaseAsWritten(st, 1, actor, g) == (st.(logs := []), Removed(c))
            && RemoveCase(st, 1, actor, g) == (st, Refused(CannotModerate))
  {
    var c := Case(1, 7, 9, Warn, Some("spam"), None, 0);
    var st := Store(map[CaseCounter := 2], [c]);
    assert FindIndex(st.logs, 1) == Some(0);
  }

  /** `modlogs` in cogs/moderation.py: every case of the user, by case
      number, the last 25 shown, no expiry marker. */
  function Modlogs(logs: seq<Case>, user: UserId): (l: Listing)
    ensures ShowsLastWindow(l, Sorted(logs, user, AllKinds))
    ensures l.Fields? ==> forall i :: 0 <= i < |l.fields| ==> !l.fields[i].expired
  {
    UserListing(logs, user, AllKinds, NoMarking, 0, 0)
  }
}

=== FILE: modlogs.dfy ===
/** cogs/modlogs.py: the display names of case kinds and the three listing
    commands `modlogs`, `viewnotes` and `mymodlogs`. The retention window
    (`TIER_EXPIRATION`) is a parameter: its definition is not part of this
    model. Timestamps and the current time are seconds on the UTC clock. */
module Modlogs {
  import opened Wrappers
  import opened Text
  import opened Ledger
  import opened Listing

  /** The `type` string stored for each kind. */
  function TypeName(k: Kind): string {
    match k
    case Timeout => "timeout"
    case Warn => "warn"
    case Ban => "ban"
    case Note => "note"
  }

  /** `LOG_TYPE_PRETTY` */
  const LogTypePretty: map<string, string> :=
    map["timeout" := "mute", "warn" := "warning", "ban" := "ban", "note" := "note"]

  /** The table is defined for exactly the four stored kinds, renames a
      timeout to a mute and a warn to a warning, and keeps the rest. */
  lemma LogTypePrettyTotal()
    ensures LogTypePretty.Keys == {TypeName(Timeout), TypeName(Warn), TypeName(Ban), TypeName(Note)}
    ensures forall k: Kind :: TypeName(k) in LogTypePretty
    ensures LogTypePretty[TypeName(Timeout)] == "mute" && LogTypePretty[TypeName(Warn)] == "warning"
    ensures LogTypePretty[TypeName(Ban)] == "ban" && LogTypePretty[TypeName(Note)] == "note"
  {
  }

  /** `str.title()` on a single lower-case word: upper-case its first letter. */
  function Capitalize(s: string): (r: string)
    ensures |r| == |s| && (|s| > 0 ==> r[1..] == s[1..])
  {
    if |s| > 0 && 'a' <= s[0] <= 'z' then [(s[0] as int - 32) as char] + s[1..] else s
  }

  /** The kind as shown in a field title: "Mute", "Warning", "Ban" or "Note". */
  function KindLabel(k: Kind): string {
    Capitalize(LogTypePretty[TypeName(k)])
  }

  /** Reading a label back. */
  function KindOfLabel(text: string): Option<Kind> {
    if text == "Mute" then Some(Timeout)
    else if text == "Warning" then Some(Warn)
    else if text == "Ban" then Some(Ban)
    else if text == "Note" then Some(Note)
    else None
  }

  /** Labels identify their kind: no two kinds share one. */
  lemma KindLabelRoundTrip(k: Kind)
    ensures KindOfLabel(KindLabel(k)) == Some(k)
  {
    assert KindLabel(Timeout) == "Mute";
    assert KindLabel(Warn) == "Warning";
    assert KindLabel(Ban) == "Ban";
    assert KindLabel(Note) == "Note";
  }

  /** The field title "Case #<n> | <Label>". */
  function FieldTitle(c: Case): (t: string)
    ensures StartsWith(t, "Case #")
    ensures EndsWith(t, " | " + KindLabel(c.kind))
  {
    "Case #" + IntToString(c.number) + " | " + KindLabel(c.kind)
  }

  /** The kind named at the end of a field title. */
  function TitleKind(t: string): Option<Kind> {
    if EndsWith(t, " | Mute") then Some(Timeout)
    else if EndsWith(t, " | Warning") then Some(Warn)
    else if EndsWith(t, " | Ban") then Some(Ban)
    else if EndsWith(t, " | Note") then Some(Note)
    else None
  }

  /** Reading a field title back: the case number between "Case #" and the
      separator, and the kind from the label after it. */
  function ParseFieldTitle(t: string): Option<(int, Kind)> {
    if !StartsWith(t, "Case #") then None
    else match TitleKind(t)
      case None => None
      case Some(k) =>
        var m := |t| - 3 - |KindLabel(k)|;
        if m < 6 || !IntText(t[6..m]) then None else Some((ParseInt(t[6..m]), k))
  }

  /** The label after the separator decides the kind, whatever precedes it. */
  lemma TitleKindOfLabel(prefix: string, k: Kind)
    ensures TitleKind(prefix + " | " + KindLabel(k)) == Some(k)
  {
    var t := prefix + " | " + KindLabel(k);
    match k
    case Timeout =>
      assert KindLabel(k) == "Mute";
      assert t[|t| - 7..] == " | Mute";
    case Warn =>
      assert KindLabel(k) == "Warning";
      assert t[|t| - 10..] == " | Warning";
      assert t[|t| - 1] == 'g';
    case Ban =>
      assert KindLabel(k) == "Ban";
      assert t[|t| - 6..] == " | Ban";
      assert t[|t| - 1] == 'n';
    case Note =>
      assert KindLabel(k) == "Note";
      assert t[|t| - 7..] == " | Note";
      assert t[|t| - 4] == 'N';
  }

  /** A field title names its case: the number and the kind read back. */
  lemma FieldTitleReadsBack(c: Case)
    ensures ParseFieldTitle(FieldTitle(c)) == Some((c.number, c.kind))
  {
    var num := IntToString(c.number);
    var t := FieldTitle(c);
    TitleKindOfLabel("Case #" + num, c.kind);
    assert t == ("Case #" + num) + " | " + KindLabel(c.kind);
    assert t[6..|t| - 3 - |KindLabel(c.kind)|] == num;
    ParseIntToString(c.number);
  }

  /** A listing shows at most 25 fields, and has a footer exactly when more
      than 25 cases matched, stating how many were left out. */
  ghost predicate Bounded(l: Listing, count: nat) {
    && (l.NoLogs? <==> count == 0)
    && (l.Fields? ==> |l.fields| <= 25 && l.omitted == (if count > 25 then Some(count - 25) else None))
  }

  /** `modlogs`: every case of the user; a case is marked EXPIRED iff it is
      not a note and now - timestamp >= the window. */
  function ModlogsListing(logs: seq<Case>, user: UserId, now: int, expiration: int): (l: Listing)
    ensures Bounded(l, Count(logs, user, AllKinds))
    ensures l.Fields? ==> forall i :: 0 <= i < |l.fields| ==>
              && l.fields[i].entry.user == user
              && (l.fields[i].expired <==> l.fields[i].entry.kind != Note && now - l.fields[i].entry.timestamp >= expiration)
  {
    UserListingFacts(logs, user, AllKinds, MarkUnlessNote, now, expiration);
    UserListing(logs, user, AllKinds, MarkUnlessNote, now, expiration)
  }

  /** `viewnotes`: only notes of that user, never marked. */
  function ViewNotes(logs: seq<Case>, user: UserId): (l: Listing)
    ensures Bounded(l, Count(logs, user, NotesOnly))
    ensures l.Fields? ==> forall i :: 0 <= i < |l.fields| ==>
              l.fields[i].entry.kind == Note && l.fields[i].entry.user == user && !l.fields[i].expired
  {
    UserListingFacts(logs, user, NotesOnly, NoMarking, 0, 0);
    UserListing(logs, user, NotesOnly, NoMarking, 0, 0)
  }

  /** `mymodlogs`: never a note, and every listed case is marked by age alone. */
  function MyModlogs(logs: seq<Case>, author: UserId, now: int, expiration: int): (l: Listing)
    ensures Bounded(l, Count(logs, author, ExceptNotes))
    ensures l.Fields? ==> forall i :: 0 <= i < |l.fields| ==>
              && l.fields[i].entry.kind != Note
              && l.fields[i].entry.user == author
              && (l.fields[i].expired <==> now - l.fields[i].entry.timestamp >= expiration)
  {
    UserListingFacts(logs, author, ExceptNotes, MarkAll, now, expiration);
    UserListing(logs, author, ExceptNotes, MarkAll, now, expiration)
  }
}

=== FILE: modmail.dfy ===
/** cogs/modmail.py: the registry of open mod mails. `mail_cache` is a
    dictionary from channel id to user id, kept in insertion order (Python
    dictionaries iterate in that order, which decides where a DM goes). It
    is modelled as a sequence of entries with distinct channels. The
    `modmails` collection is a sequence of documents with the same shape.
    The mail number comes from a counter whose code is not part of this
    model, so it is a parameter, as is the id of the channel the platform
    creates. */
module Modmail {
  import opened Wrappers
  import opened Text

  /** One registry entry or stored document: channel id -> user id. */
  datatype Mail = Mail(channel: nat, user: nat)

  predicate UniqueChannels(c: seq<Mail>) {
    forall i, j :: 0 <= i < j < |c| ==> c[i].channel != c[j].channel
  }

  /** Distinct channels, seen from the head. */
  lemma UnconsUnique(c: seq<Mail>)
    requires UniqueChannels(c) && |c| > 0
    ensures UniqueChannels(c[1..])
    ensures forall m :: m in c[1..] ==> m.channel != c[0].channel
  {
    forall m | m in c[1..] ensures m.channel != c[0].channel {
      var k :| 0 <= k < |c| - 1 && c[1..][k] == m;
      assert c[k + 1] == m;
    }
  }

  lemma ConsUnique(x: Mail, rest: seq<Mail>)
    requires UniqueChannels(rest)
    requires forall m :: m in rest ==> m.channel != x.channel
    ensures UniqueChannels([x] + rest)
  {
    var r := [x] + rest;
    forall i, j | 0 <= i < j < |r| ensures r[i].channel != r[j].channel {
      if i == 0 {
        assert r[j] == rest[j - 1];
        assert rest[j - 1] in rest;
      } else {
        assert r[i] == rest[i - 1] && r[j] == rest[j - 1];
      }
    }
  }

  /** `mail_cache.get(channel)` */
  function Get(c: seq<Mail>, channel: nat): (r: Option<nat>)
    ensures r.Some? ==> Mail(channel, r.value) in c
    ensures r.None? <==> forall m :: m in c ==> m.channel != channel
  {
    if |c| == 0 then None
    else if c[0].channel == channel then Some(c[0].user)
    else Get(c[1..], channel)
  }

  /** With distinct channels an entry is found exactly when it is present. */
  lemma GetIffIn(c: seq<Mail>, channel: nat, user: nat)
    requires UniqueChannels(c)
    ensures Get(c, channel) == Some(user) <==> Mail(channel, user) in c
  {
    if Mail(channel, user) in c {
      var k :| 0 <= k < |c| && c[k] == Mail(channel, user);
      var r := Get(c, channel);
      var j :| 0 <= j < |c| && c[j] == Mail(channel, r.value);
      assert j == k;
    }
  }

  /** `mail_cache.update({channel: user})`: replace the value in place when the
      channel is present, otherwise append. */
  function Put(c: seq<Mail>, channel: nat, user: nat): (r: seq<Mail>)
    ensures Get(r, channel) == Some(user)
    ensures forall ch :: ch != channel ==> Get(r, ch) == Get(c, ch)
  {
    if |c| == 0 then [Mail(channel, user)]
    else if c[0].channel == channel then [Mail(channel, user)] + c[1..]
    else [c[0]] + Put(c[1..], channel, user)
  }

  /** Putting keeps channels distinct and adds only the new entry. */
  lemma PutShape(c: seq<Mail>, channel: nat, user: nat)
    requires UniqueChannels(c)
    ensures UniqueChannels(Put(c, channel, user))
    ensures forall m :: m in Put(c, channel, user) ==> m in c || m == Mail(channel, user)
  {
    PutMembers(c, channel, user);
    PutUnique(c, channel, user);
  }

  lemma {:induction false} PutMembers(c: seq<Mail>, channel: nat, user: nat)
    ensures forall m :: m in Put(c, channel, user) ==> m in c || m == Mail(channel, user)
  {
    if |c| > 0 && c[0].channel != channel {
      PutMembers(c[1..], channel, user);
    }
  }

  lemma {:induction false} PutUnique(c: seq<Mail>, channel: nat, user: nat)
    requires UniqueChannels(c)
    ensures UniqueChannels(Put(c, channel, user))
  {
    var r := Put(c, channel, user);
    if |c| > 0 && c[0].channel == channel {
      assert forall i :: 0 <= i < |r| ==> r[i].channel == c[i].channel;
    } else if |c| > 0 {
      UnconsUnique(c);
      PutUnique(c[1..], channel, user);
      PutMembers(c[1..], channel, user);
      ConsUnique(c[0], Put(c[1..], channel, user));
    }
  }

  /** `del mail_cache[channel]` */
  function Del(c: seq<Mail>, channel: nat): (r: seq<Mail>)
    ensures Get(r, channel) == None
    ensures forall ch :: ch != channel ==> Get(r, ch) == Get(c, ch)
    ensures forall m :: m in r <==> m in c && m.channel != channel
  {
    if |c| == 0 then []
    else if c[0].channel == channel then Del(c[1..], channel)
    else [c[0]] + Del(c[1..], channel)
  }

  lemma {:induction false} DelUnique(c: seq<Mail>, channel: nat)
    requires UniqueChannels(c)
    ensures UniqueChannels(Del(c, channel))
  {
    if |c| > 0 {
      UnconsUnique(c);
      DelUnique(c[1..], channel);
      if c[0].channel != channel {
        ConsUnique(c[0], Del(c[1..], channel));
      }
    }
  }

  /** `delete_one`: remove the first document equal to `m`. */
  function DeleteOne(store: seq<Mail>, m: Mail): (r: seq<Mail>)
    ensures m in store ==> |r| == |store| - 1
    ensures m !in store ==> r == store
    ensures forall x :: x in r ==> x in store
    ensures forall x :: x in store && x != m ==> x in r
  {
    if |store| == 0 then []
    else if store[0] == m then store[1..]
    else [store[0]] + DeleteOne(store[1..], m)
  }

  /** With distinct channels, deleting a document removes it entirely. */
  lemma {:induction false} DeleteOneUnique(store: seq<Mail>, d: Mail)
    requires UniqueChannels(store)
    ensures UniqueChannels(DeleteOne(store, d))
    ensures d !in DeleteOne(store, d)
  {
    if |store| > 0 {
      UnconsUnique(store);
      if store[0] != d {
        DeleteOneUnique(store[1..], d);
        ConsUnique(store[0], DeleteOne(store[1..], d));
      }
    }
  }

  /** The registry and the collection together. */
  datatype Registry = Registry(cache: seq<Mail>, store: seq<Mail>)

  /** The cache mirrors the collection: the same entries, channels distinct. */
  ghost predicate Mirrors(r: Registry) {
    && UniqueChannels(r.cache)
    && UniqueChannels(r.store)
    && forall m :: m in r.cache <==> m in r.store
  }

  /** Feed stored documents into the cache one by one. */
  function Load(cache: seq<Mail>, docs: seq<Mail>): seq<Mail>
    decreases |docs|
  {
    if |docs| == 0 then cache else Load(Put(cache, docs[0].channel, docs[0].user), docs[1..])
  }

  /** `load_active_modmails`, run once at start-up on the empty cache. */
  function LoadActiveModmails(store: seq<Mail>): seq<Mail> {
    Load([], store)
  }

  /** The documents still to load never share a channel with the cache. */
  ghost predicate Disjoint(cache: seq<Mail>, docs: seq<Mail>) {
    forall m, d :: m in cache && d in docs ==> m.channel != d.channel
  }

  lemma {:induction false} LoadCollects(cache: seq<Mail>, docs: seq<Mail>)
    decreases |docs|
    requires UniqueChannels(cache) && UniqueChannels(docs) && Disjoint(cache, docs)
    ensures UniqueChannels(Load(cache, docs))
    ensures forall m :: m in Load(cache, docs) <==> m in cache || m in docs
  {
    if |docs| > 0 {
      var c' := Put(cache, docs[0].channel, docs[0].user);
      LoadStep(cache, docs);
      LoadCollects(c', docs[1..]);
    }
  }

  /** One step of loading keeps the invariant and the union of entries. */
  lemma LoadStep(cache: seq<Mail>, docs: seq<Mail>)
    requires |docs| > 0
    requires UniqueChannels(cache) && UniqueChannels(docs) && Disjoint(cache, docs)
    ensures var c' := Put(cache, docs[0].channel, docs[0].user);
            && UniqueChannels(c') && UniqueChannels(docs[1..]) && Disjoint(c', docs[1..])
            && (forall m :: m in c' || m in docs[1..] <==> m in cache || m in docs)
  {
    var d := docs[0];
    PutFresh(cache, d);
    UnconsUnique(docs);
    assert forall e :: e in docs[1..] ==> e in docs;
    assert docs == [d] + docs[1..];
  }

  /** Putting a channel that is not yet present adds exactly that entry. */
  lemma PutFresh(cache: seq<Mail>, d: Mail)
    requires UniqueChannels(cache)
    requires forall m :: m in cache ==> m.channel != d.channel
    ensures UniqueChannels(Put(cache, d.channel, d.user))
    ensures forall m :: m in Put(cache, d.channel, d.user) <==> m in cache || m == d
  {
    var c' := Put(cache, d.channel, d.user);
    PutShape(cache, d.channel, d.user);
    forall m | m in cache ensures m in c' {
      GetIffIn(cache, m.channel, m.user);
      GetIffIn(c', m.channel, m.user);
    }
    GetIffIn(c', d.channel, d.user);
  }

  /** Loading makes the cache mirror the stored documents. */
  lemma LoadActiveMirrors(store: seq<Mail>)
    requires UniqueChannels(store)
    ensures Mirrors(Registry(LoadActiveModmails(store), store))
  {
    LoadCollects([], store);
  }

  /** `on_message`: a guild message goes nowhere; a DM goes to the channel
      of the first cache entry whose user is the author, if any. */
  function Route(cache: seq<Mail>, inGuild: bool, author: nat): (r: Option<nat>)
    ensures inGuild ==> r == None
    ensures r.Some? ==> exists k :: 0 <= k < |cache| && cache[k] == Mail(r.value, author)
                                    && forall j :: 0 <= j < k ==> cache[j].user != author
    ensures !inGuild && r.None? ==> forall m :: m in cache ==> m.user != author
  {
    if inGuild then None
    else if |cache| == 0 then None
    else if cache[0].user == author then Some(cache[0].channel)
    else
      var rest := Route(cache[1..], inGuild, author);
      if rest.Some? then
        assert exists k :: 0 <= k < |cache[1..]| && cache[1..][k] == Mail(rest.value, author)
                           && forall j :: 0 <= j < k ==> cache[1..][j].user != author;
        var k :| 0 <= k < |cache[1..]| && cache[1..][k] == Mail(rest.value, author)
                 && forall j :: 0 <= j < k ==> cache[1..][j].user != author;
        assert cache[k + 1] == Mail(rest.value, author);
        assert forall j :: 0 <= j < k + 1 ==> cache[j].user != author by {
          forall j | 0 <= j < k + 1 ensures cache[j].user != author {
            if j > 0 { assert cache[j] == cache[1..][j - 1]; }
          }
        }
        rest
      else rest
  }

  datatype Refusal = NotActiveChannel | AlreadyOpen

  /** `reply`: only in an active mail channel, and then to that channel's user.
      The registry is not changed. */
  function Reply(cache: seq<Mail>, channel: nat): (r: Result<nat, Refusal>)
    ensures r.Err? <==> Get(cache, channel).None?
    ensures r.Err? ==> r.error == NotActiveChannel
    ensures r.Ok? ==> Mail(channel, r.value) in cache
  {
    match Get(cache, channel)
    case None => Err(NotActiveChannel)
    case Some(u) => Ok(u)
  }

  /** `close`: outside an active mail channel nothing happens; otherwise the
      channel's entry leaves the cache and its document leaves the collection. */
  function Close(reg: Registry, channel: nat): (r: (Registry, Option<Refusal>))
    ensures Get(reg.cache, channel).None? ==> r == (reg, Some(NotActiveChannel))
    ensures Get(reg.cache, channel).Some? ==>
              && r.1 == None
              && Get(r.0.cache, channel) == None
              && (forall ch :: ch != channel ==> Get(r.0.cache, ch) == Get(reg.cache, ch))
  {
    match Get(reg.cache, channel)
    case None => (reg, Some(NotActiveChannel))
    case Some(u) => (Registry(Del(reg.cache, channel), DeleteOne(reg.store, Mail(channel, u))), None)
  }

  /** Closing keeps the cache a mirror of the collection. */
  lemma CloseKeepsMirror(reg: Registry, channel: nat)
    requires Mirrors(reg)
    ensures Mirrors(Close(reg, channel).0)
  {
    match Get(reg.cache, channel)
    case None =>
    case Some(u) =>
      var d := Mail(channel, u);
      DeleteOneUnique(reg.store, d);
      DelUnique(reg.cache, channel);
      forall m | m in reg.store && m.channel == channel ensures m == d {
        GetIffIn(reg.cache, m.channel, m.user);
      }
  }

  datatype StartReply = ShowPrompt | Refused(why: Refusal)

  /** `start_mail`: refuse when the user already has a stored mod mail. */
  function StartMail(store: seq<Mail>, user: nat): (r: StartReply)
    ensures r == Refused(AlreadyOpen) <==> exists m :: m in store && m.user == user
    ensures r.ShowPrompt? <==> forall m :: m in store ==> m.user != user
  {
    if exists m :: m in store && m.user == user then Refused(AlreadyOpen) else ShowPrompt
  }

  /** `PromptModal.callback`: a channel named "mail-<number>" is created and
      channel -> user is recorded in both the collection and the cache. */
  function CreateMail(reg: Registry, user: nat, channel: nat, number: nat): (r: (Registry, string))
    ensures r.0.store == reg.store + [Mail(channel, user)]
    ensures Get(r.0.cache, channel) == Some(user)
    ensures forall ch :: ch != channel ==> Get(r.0.cache, ch) == Get(reg.cache, ch)
    ensures |r.1| > 5 && r.1[..5] == "mail-" && AllDigits(r.1[5..]) && ParseNat(r.1[5..]) == number
  {
    ParseNatToString(number);
    var name := "mail-" + NatToString(number);
    assert name[5..] == NatToString(number);
    assert name[..5] == "mail-";
    (Registry(Put(reg.cache, channel, user), reg.store + [Mail(channel, user)]), name)
  }

  /** A fresh channel keeps the cache a mirror of the collection. */
  lemma CreateKeepsMirror(reg: Registry, user: nat, channel: nat, number: nat)
    requires Mirrors(reg)
    requires forall m :: m in reg.store ==> m.channel != channel
    ensures Mirrors(CreateMail(reg, user, channel, number).0)
  {
    var r := CreateMail(reg, user, channel, number).0;
    PutShape(reg.cache, channel, user);
    forall m | m in reg.cache ensures m in r.cache {
      GetIffIn(reg.cache, m.channel, m.user);
      GetIffIn(r.cache, m.channel, m.user);
    }
    GetIffIn(r.cache, channel, user);
  }

  /** At most one stored mod mail per user. */
  ghost predicate OnePerUser(store: seq<Mail>) {
    forall i, j :: 0 <= i < j < |store| ==> store[i].user != store[j].user
  }

  /** The button path as the two interactions it is: pressing the button
      runs the check and, when it passes, shows a prompt; submitting the
      prompt later runs `PromptModal.callback`. `prompts` holds, per user,
      the prompts shown and not yet submitted. */
  datatype Flow = Flow(reg: Registry, prompts: multiset<nat>)

  /** Pressing "Create Mod Mail": `start_mail`. */
  function Press(f: Flow, user: nat): (r: (Flow, StartReply))
    ensures r.0.reg == f.reg
    ensures r.1.Refused? <==> exists m :: m in f.reg.store && m.user == user
    ensures r.1.Refused? ==> r.0 == f
    ensures r.1.ShowPrompt? ==> r.0.prompts == f.prompts + multiset{user}
  {
    match StartMail(f.reg.store, user)
    case Refused(why) => (f, Refused(why))
    case ShowPrompt => (f.(prompts := f.prompts + multiset{user}), ShowPrompt)
  }

  /** Submitting a prompt as written: the callback creates the mod mail
      without looking at the store again. `None`: the user has no prompt
      to submit. */
  function Submit(f: Flow, user: nat, channel: nat, number: nat): (r: Option<Flow>)
    ensures r.None? <==> user !in f.prompts
    ensures r.Some? ==> r.value.reg.store == f.reg.store + [Mail(channel, user)]
                        && r.value.prompts == f.prompts - multiset{user}
  {
    if user !in f.prompts then None
    else Some(Flow(CreateMail(f.reg, user, channel, number).0, f.prompts - multiset{user}))
  }

  /** A press followed at once by its submit never gives a user a second
      mod mail: the check holds while nothing else happens in between. */
  lemma SequentialOpenKeepsOnePerUser(f: Flow, user: nat, channel: nat, number: nat)
    requires OnePerUser(f.reg.store)
    ensures var p := Press(f, user);
            p.1.ShowPrompt? ==> OnePerUser(Submit(p.0, user, channel, number).value.reg.store)
  {
  }

  /** Two presses before either submit: both see no mod mail, so both
      prompts are shown, and submitting both gives user 1 two mod mails. */
  lemma ButtonRaceOpensTwice()
    ensures var f0 := Flow(Registry([], []), multiset{});
            var (f1, a) := Press(f0, 1);
            var (f2, b) := Press(f1, 1);
            && a == ShowPrompt && b == ShowPrompt
            && Submit(f2, 1, 10, 1).Some?
            && Submit(Submit(f2, 1, 10, 1).value, 1, 11, 2).Some?
            && var f4 := Submit(Submit(f2, 1, 10, 1).value, 1, 11, 2).value;
               f4.reg.store == [Mail(10, 1), Mail(11, 1)] && !OnePerUser(f4.reg.store)
  {
    var f0 := Flow(Registry([], []), multiset{});
    var (f1, a) := Press(f0, 1);
    var (f2, b) := Press(f1, 1);
    assert f2.prompts == multiset{1, 1};
    var f3 := Submit(f2, 1, 10, 1).value;
    assert f3.reg.store == [Mail(10, 1)];
    var f4 := Submit(f3, 1, 11, 2).value;
    assert f4.reg.store == [Mail(10, 1), Mail(11, 1)];
  }

  /** Submitting with the check repeated: when the user already has a mod
      mail by the time the prompt comes back, the prompt is dropped and
      nothing is created. */
  function SubmitChecked(f: Flow, user: nat, channel: nat, number: nat): (r: Option<(Flow, StartReply)>)
    ensures r.None? <==> user !in f.prompts
    ensures r.Some? ==> r.value.0.prompts == f.prompts - multiset{user}
    ensures r.Some? && r.value.1.Refused? ==>
              r.value.0.reg == f.reg && exists m :: m in f.reg.store && m.user == user
    ensures r.Some? && r.value.1.ShowPrompt? ==>
              && r.value.0.reg.store == f.reg.store + [Mail(channel, user)]
              && forall m :: m in f.reg.store ==> m.user != user
  {
    if user !in f.prompts then None
    else match StartMail(f.reg.store, user)
      case Refused(why) => Some((f.(prompts := f.prompts - multiset{user}), Refused(why)))
      case ShowPrompt => Some((Flow(CreateMail(f.reg, user, channel, number).0, f.prompts - multiset{user}), ShowPrompt))
  }

  /** With the check repeated on submit, no order of presses and submits
      gives a user a second mod mail: presses leave the store alone and
      every submit keeps one mod mail per user. */
  lemma SubmitCheckedKeepsOnePerUser(f: Flow, user: nat, channel: nat, number: nat)
    requires OnePerUser(f.reg.store)
    ensures OnePerUser(Press(f, user).0.reg.store)
    ensures var r := SubmitChecked(f, user, channel, number);
            r.Some? ==> OnePerUser(r.value.0.reg.store)
  {
  }
}

=== FILE: owner.dfy ===
/** cogs/owner.py: the owner-only `run` command. What is modelled is the
    text preparation before the code is parsed, the rewrite that makes the
    last expression the function's return value, and the length limit on the
    reply. Parsing, compiling and executing the code are left out; the
    parsed statements are given as an abstract syntax tree. */
module Owner {
  import opened Wrappers
  import opened Text

  /** An expression, kept as its source text. */
  type Expr = string

  /** The statement forms the rewrite distinguishes; every other statement
      (assignments, loops, `try`, `async with`, ...) is `Other`. */
  datatype Stmt =
    | ExprStmt(value: Expr)
    | Return(result: Option<Expr>)
    | If(test: Expr, body: seq<Stmt>, orelse: seq<Stmt>)
    | With(items: seq<Expr>, body: seq<Stmt>)
    | Other(text: string)

  /** `insert_returns` as written: it reads `body[-1]` without checking for
      an empty list, which raises `IndexError` on the empty `orelse` of an
      `if` without `else`. `None` stands for that exception, which `run`
      reports instead of running the code. */
  function InsertReturnsAsWritten(body: seq<Stmt>): (r: Option<seq<Stmt>>)
    ensures |body| == 0 ==> r == None
    ensures r.Some? ==> |r.value| == |body| && r.value[..|body| - 1] == body[..|body| - 1]
    ensures r.Some? && body[|body| - 1].ExprStmt? ==>
              r.value[|body| - 1] == Return(Some(body[|body| - 1].value))
    ensures r.Some? && body[|body| - 1].If? ==>
              var s := body[|body| - 1];
              && InsertReturnsAsWritten(s.body).Some? && InsertReturnsAsWritten(s.orelse).Some?
              && r.value[|body| - 1]
                 == If(s.test, InsertReturnsAsWritten(s.body).value, InsertReturnsAsWritten(s.orelse).value)
    ensures r.Some? && body[|body| - 1].With? ==>
              var s := body[|body| - 1];
              InsertReturnsAsWritten(s.body).Some? && r.value[|body| - 1] == With(s.items, InsertReturnsAsWritten(s.body).value)
    ensures |body| > 0 && (body[|body| - 1].Return? || body[|body| - 1].Other?) ==> r == Some(body)
  {
    if |body| == 0 then None
    else
      var init := body[..|body| - 1];
      match body[|body| - 1]
      case ExprStmt(v) => Some(init + [Return(Some(v))])
      case If(t, b, o) =>
        (match (InsertReturnsAsWritten(b), InsertReturnsAsWritten(o))
         case (Some(b'), Some(o')) => Some(init + [If(t, b', o')])
         case _ => None)
      case With(items, b) =>
        (match InsertReturnsAsWritten(b)
         case Some(b') => Some(init + [With(items, b')])
         case None => None)
      case _ => Some(body)
  }

  /** Every statement list that the rewrite reads `[-1]` of is non-empty. */
  predicate TailsNonEmpty(body: seq<Stmt>) {
    |body| > 0 &&
    match body[|body| - 1]
    case If(_, b, o) => TailsNonEmpty(b) && TailsNonEmpty(o)
    case With(_, b) => TailsNonEmpty(b)
    case _ => true
  }

  /** The rewrite with an empty list left alone. */
  function InsertReturns(body: seq<Stmt>): (r: seq<Stmt>)
    ensures |r| == |body|
    ensures |body| > 0 ==> r[..|body| - 1] == body[..|body| - 1]
    ensures |body| > 0 && body[|body| - 1].ExprStmt? ==> r[|body| - 1] == Return(Some(body[|body| - 1].value))
    ensures |body| > 0 && body[|body| - 1].If? ==>
              var s := body[|body| - 1];
              r[|body| - 1] == If(s.test, InsertReturns(s.body), InsertReturns(s.orelse))
    ensures |body| > 0 && body[|body| - 1].With? ==>
              var s := body[|body| - 1];
              r[|body| - 1] == With(s.items, InsertReturns(s.body))
    ensures |body| > 0 && (body[|body| - 1].Return? || body[|body| - 1].Other?) ==> r == body
  {
    if |body| == 0 then body
    else
      var init := body[..|body| - 1];
      match body[|body| - 1]
      case ExprStmt(v) => init + [Return(Some(v))]
      case If(t, b, o) => init + [If(t, InsertReturns(b), InsertReturns(o))]
      case With(items, b) => init + [With(items, InsertReturns(b))]
      case _ => body
  }

  /** No list along the trailing path ends in a bare expression statement:
      control that falls off the end returns the last value instead. */
  predicate ReturnsLast(body: seq<Stmt>) {
    |body| == 0 ||
    match body[|body| - 1]
    case ExprStmt(_) => false
    case If(_, b, o) => ReturnsLast(b) && ReturnsLast(o)
    case With(_, b) => ReturnsLast(b)
    case _ => true
  }

  /** The rewrite establishes `ReturnsLast`. */
  lemma {:induction false} InsertReturnsReturnsLast(body: seq<Stmt>)
    ensures ReturnsLast(InsertReturns(body))
  {
    if |body| > 0 {
      var r := InsertReturns(body);
      assert r[|r| - 1] == match body[|body| - 1]
        case ExprStmt(v) => Return(Some(v))
        case If(t, b, o) => If(t, InsertReturns(b), InsertReturns(o))
        case With(items, b) => With(items, InsertReturns(b))
        case s => s;
      match body[|body| - 1]
      case If(t, b, o) =>
        InsertReturnsReturnsLast(b);
        InsertReturnsReturnsLast(o);
      case With(items, b) =>
        InsertReturnsReturnsLast(b);
      case _ =>
    }
  }

  /** A list that already returns its last value is left unchanged. */
  lemma {:induction false} InsertReturnsFixes(body: seq<Stmt>)
    requires ReturnsLast(body)
    ensures InsertReturns(body) == body
  {
    if |body| > 0 {
      var init := body[..|body| - 1];
      assert body == init + [body[|body| - 1]];
      match body[|body| - 1]
      case If(t, b, o) =>
        InsertReturnsFixes(b);
        InsertReturnsFixes(o);
      case With(items, b) =>
        InsertReturnsFixes(b);
      case _ =>
    }
  }

  /** Applying the rewrite twice is the same as applying it once. */
  lemma {:induction false} InsertReturnsIdempotent(body: seq<Stmt>)
    ensures InsertReturns(InsertReturns(body)) == InsertReturns(body)
  {
    InsertReturnsReturnsLast(body);
    InsertReturnsFixes(InsertReturns(body));
  }

  /** The code as written fails exactly when some list it reads the last
      statement of is empty, and otherwise agrees with the corrected rewrite. */
  lemma {:induction false} AsWrittenAgrees(body: seq<Stmt>)
    ensures InsertReturnsAsWritten(body).Some? <==> TailsNonEmpty(body)
    ensures TailsNonEmpty(body) ==> InsertReturnsAsWritten(body) == Some(InsertReturns(body))
  {
    if |body| > 0 {
      match body[|body| - 1]
      case If(t, b, o) =>
        AsWrittenAgrees(b);
        AsWrittenAgrees(o);
      case With(items, b) =>
        AsWrittenAgrees(b);
      case _ =>
    }
  }

  /** `if x: y` with no `else`: the code as written raises, the corrected
      rewrite returns `y`'s value from the branch. */
  lemma IfWithoutElseFails()
    ensures InsertReturnsAsWritten([If("x", [ExprStmt("y")], [])]) == None
    ensures InsertReturns([If("x", [ExprStmt("y")], [])]) == [If("x", [Return(Some("y"))], [])]
  {
    assert InsertReturnsAsWritten([ExprStmt("y")]) == Some([Return(Some("y"))]);
  }

  // ---- text preparation in `run` ----

  /** `code.strip("` ")`, then one leading "py\n" removed. */
  function CleanCode(code: string): (r: string)
    ensures var s := Strip(code, {'`', ' '});
            (StartsWith(s, "py\n") ==> s == "py\n" + r) && (!StartsWith(s, "py\n") ==> r == s)
    ensures |r| <= |code|
    ensures !StartsWith(Strip(code, {'`', ' '}), "py\n") && |r| > 0 ==>
              r[0] !in {'`', ' '} && r[|r| - 1] !in {'`', ' '}
  {
    var s := Strip(code, {'`', ' '});
    if StartsWith(s, "py\n") then s[3..] else s
  }

  /** The line boundaries `str.splitlines` recognises. */
  predicate IsLineBreak(c: char) {
    c == '\n' || c == '\r' || c == '\U{b}' || c == '\U{c}'
    || c == '\U{1c}' || c == '\U{1d}' || c == '\U{1e}' || c == '\U{85}'
    || c == '\U{2028}' || c == '\U{2029}'
  }

  predicate NoBreak(s: string) {
    forall i :: 0 <= i < |s| ==> !IsLineBreak(s[i])
  }

  /** Split `s` into lines, `cur` being the part of the current line
      already read. */
  function SplitFrom(s: string, cur: string): (r: seq<string>)
    ensures |r| == 0 <==> |s| == 0 && |cur| == 0
    ensures NoBreak(cur) ==> forall l :: l in r ==> NoBreak(l)
    decreases |s|
  {
    if |s| == 0 then (if |cur| == 0 then [] else [cur])
    else if IsLineBreak(s[0]) then
      var w := if s[0] == '\r' && |s| > 1 && s[1] == '\n' then 2 else 1;
      [cur] + SplitFrom(s[w..], "")
    else
      assert forall k :: 0 <= k < |cur| ==> (cur + [s[0]])[k] == cur[k];
      SplitFrom(s[1..], cur + [s[0]])
  }

  /** `str.splitlines()`: no empty piece after a final boundary, and "\r\n"
      is one boundary. */
  function SplitLines(s: string): (r: seq<string>)
    ensures |r| == 0 <==> |s| == 0
    ensures forall l :: l in r ==> NoBreak(l)
  {
    SplitFrom(s, "")
  }

  /** Characters that are not boundaries join the current line. */
  lemma {:induction false} SplitFromPrefix(a: string, t: string, cur: string)
    requires NoBreak(a)
    ensures SplitFrom(a + t, cur) == SplitFrom(t, cur + a)
    decreases |a|
  {
    if |a| == 0 {
      assert a + t == t && cur + a == cur;
    } else {
      assert (a + t)[0] == a[0];
      assert (a + t)[1..] == a[1..] + t;
      SplitFromPrefix(a[1..], t, cur + [a[0]]);
      assert cur + [a[0]] + a[1..] == cur + a;
    }
  }

  /** A line without boundaries followed by "\n" and more text splits off
      as the first line. */
  lemma SplitCons(a: string, rest: string)
    requires NoBreak(a)
    ensures SplitLines(a + "\n" + rest) == [a] + SplitLines(rest)
  {
    var t := ['\n'] + rest;
    assert a + "\n" + rest == a + t;
    SplitFromPrefix(a, t, "");
    assert "" + a == a;
    assert t[1..] == rest;
  }

  /** Joining with "\n" and splitting again gives back pieces that are
      non-empty and contain no boundary. */
  lemma {:induction false} SplitJoin(ps: seq<string>)
    requires forall k :: 0 <= k < |ps| ==> |ps[k]| > 0 && NoBreak(ps[k])
    ensures SplitLines(Join(ps, "\n")) == ps
  {
    if |ps| == 1 {
      SplitFromPrefix(ps[0], "", "");
      assert ps[0] + "" == ps[0] && "" + ps[0] == ps[0];
    } else if |ps| > 1 {
      SplitJoin(ps[1..]);
      SplitCons(ps[0], Join(ps[1..], "\n"));
    }
  }

  /** The first line of the generated function. */
  const Header := "async def _eval_expr():"

  /** One level of indentation. */
  const Pad := "    "

  /** The source lines joined with a newline and a level of indentation,
      wrapped in the function definition. */
  function WrapInFunction(code: string): string {
    Header + "\n" + Pad + Join(SplitLines(code), "\n" + Pad)
  }

  function Indent(lines: seq<string>, pad: string): (r: seq<string>)
    ensures |r| == |lines|
    ensures forall k :: 0 <= k < |r| ==> r[k] == pad + lines[k]
  {
    seq(|lines|, k requires 0 <= k < |lines| => pad + lines[k])
  }

  /** Joining with newline-plus-pad after one pad is joining padded lines. */
  lemma {:induction false} JoinIndented(lines: seq<string>, pad: string, nl: string)
    requires |lines| > 0
    ensures pad + Join(lines, nl + pad) == Join(Indent(lines, pad), nl)
  {
    if |lines| > 1 {
      JoinIndented(lines[1..], pad, nl);
      assert Indent(lines, pad)[1..] == Indent(lines[1..], pad);
    }
  }

  /** The generated text reads as the header followed by every source line
      indented by four spaces (blank source lines become four spaces). */
  lemma WrapIndentsEveryLine(code: string)
    requires |code| > 0
    ensures SplitLines(WrapInFunction(code)) == [Header] + Indent(SplitLines(code), Pad)
  {
    var lines := SplitLines(code);
    var ps := [Header] + Indent(lines, Pad);
    WrapIsJoin(Header, lines, Pad, "\n");
    IndentedPieces(lines);
    SplitJoin(ps);
  }

  lemma WrapIsJoin(h: string, lines: seq<string>, pad: string, nl: string)
    requires |lines| > 0
    ensures h + nl + pad + Join(lines, nl + pad) == Join([h] + Indent(lines, pad), nl)
  {
    JoinIndented(lines, pad, nl);
    assert ([h] + Indent(lines, pad))[1..] == Indent(lines, pad);
  }

  lemma IndentedPieces(lines: seq<string>)
    requires forall l :: l in lines ==> NoBreak(l)
    ensures var ps := [Header] + Indent(lines, Pad);
            forall k :: 0 <= k < |ps| ==> |ps[k]| > 0 && NoBreak(ps[k])
  {
    var ps := [Header] + Indent(lines, Pad);
    forall k | 0 <= k < |ps| ensures |ps[k]| > 0 && NoBreak(ps[k]) {
      if k > 0 {
        var l := lines[k - 1];
        assert l in lines;
        assert ps[k] == Pad + l;
        assert forall i :: 4 <= i < |ps[k]| ==> ps[k][i] == l[i - 4];
      }
    }
  }

  /** The longest message the platform accepts. */
  const MessageLimit := 2000
  const TooLong := "The output is too long?"

  /** The reply `run` sends for a result: the echoed code and the result in a
      code block, or a notice when that would exceed the limit. */
  function RunReply(code: string, result: string): (r: string)
    ensures |r| <= MessageLimit
    ensures var out := "```py\n>>> " + code + "\n\n\n" + result + "```";
            (|out| <= MessageLimit <==> r == out) && (|out| > MessageLimit <==> r == TooLong)
  {
    var out := "```py\n>>> " + code + "\n\n\n" + result + "```";
    assert out[0] == '`' != TooLong[0];
    if |out| > MessageLimit then TooLong else out
  }
}

=== FILE: permissions.dfy ===
/** `can_moderate_user` (cogs/moderation.py) and the role order it relies on.
    The order is the chat library's: a role is below another when its
    position is lower, and between equal positions the role with the
    larger id is the lower one. */
module Permissions {

  datatype Role = Role(position: int, id: nat)

  /** `a < b` on roles. */
  predicate RoleLt(a: Role, b: Role) {
    a.position < b.position || (a.position == b.position && a.id > b.id)
  }

  /** `a <= b` on roles, defined by the library as `not (b < a)`. */
  predicate RoleLe(a: Role, b: Role) {
    !RoleLt(b, a)
  }

  /** A guild member as far as moderation looks at one. */
  datatype Member = Member(id: nat, bot: bool, topRole: Role)

  /** Who may moderate whom: never a bot, never oneself; otherwise the
      actor's top role must be strictly above the target's, unless the
      actor owns the guild. */
  function CanModerateUser(actor: Member, target: Member, ownerId: nat): (r: bool)
    ensures target.bot || actor.id == target.id ==> !r
    ensures actor.id == ownerId ==> (r <==> !target.bot && actor.id != target.id)
    ensures actor.id != ownerId ==> (r <==> !target.bot && actor.id != target.id && RoleLt(target.topRole, actor.topRole))
  {
    if target.bot || actor.id == target.id then false
    else if RoleLe(actor.topRole, target.topRole) && actor.id != ownerId then false
    else true
  }

  /** The role order is a strict total order (irreflexive, transitive, and any
      two roles with different ids are comparable). */
  lemma RoleOrderIsStrictTotal(a: Role, b: Role, c: Role)
    ensures !RoleLt(a, a)
    ensures RoleLt(a, b) && RoleLt(b, c) ==> RoleLt(a, c)
    ensures a != b ==> RoleLt(a, b) || RoleLt(b, a)
    ensures !(RoleLt(a, b) && RoleLt(b, a))
  {
  }

  /** Two members who do not own the guild can never moderate each other. */
  lemma NoMutualModeration(a: Member, b: Member, ownerId: nat)
    requires a.id != ownerId && b.id != ownerId
    ensures !(CanModerateUser(a, b, ownerId) && CanModerateUser(b, a, ownerId))
  {
    RoleOrderIsStrictTotal(a.topRole, b.topRole, a.topRole);
  }
}

=== FILE: pretty.dfy ===
/** `seconds_to_pretty` (cogs/moderation.py): a human-readable duration made
    by greedy division into years, months, days, hours, minutes and
    seconds, using the fixed approximations year = 365 days and
    month = 30 days. The source takes a float; this model takes whole
    seconds. */
module Pretty {
  import opened Text

  datatype Unit = Unit(name: string, seconds: nat)

  /** The unit table, largest first, as the Python dict lists it. */
  const Units: seq<Unit> := [
    Unit("year", 365 * 24 * 60 * 60),
    Unit("month", 30 * 24 * 60 * 60),
    Unit("day", 24 * 60 * 60),
    Unit("hour", 60 * 60),
    Unit("minute", 60),
    Unit("second", 1)
  ]

  predicate PositiveUnits(us: seq<Unit>) {
    forall i :: 0 <= i < |us| ==> us[i].seconds > 0
  }

  /** The quotient taken for each unit in turn by `divmod(remainder, duration)`. */
  function Quotients(rem: nat, us: seq<Unit>): (vs: seq<nat>)
    requires PositiveUnits(us)
    ensures |vs| == |us|
  {
    if |us| == 0 then [] else [rem / us[0].seconds] + Quotients(rem % us[0].seconds, us[1..])
  }

  /** What is left after the last unit has been divided out. */
  function Leftover(rem: nat, us: seq<Unit>): nat
    requires PositiveUnits(us)
  {
    if |us| == 0 then rem else Leftover(rem % us[0].seconds, us[1..])
  }

  /** Sum of value times unit length. */
  function Weighted(vs: seq<nat>, us: seq<Unit>): nat
    requires |vs| == |us|
  {
    if |vs| == 0 then 0 else vs[0] * us[0].seconds + Weighted(vs[1..], us[1..])
  }

  /** The greedy quotients together with the leftover account for every second. */
  lemma {:induction false} QuotientsReconstruct(rem: nat, us: seq<Unit>)
    requires PositiveUnits(us)
    ensures Weighted(Quotients(rem, us), us) + Leftover(rem, us) == rem
  {
    if |us| > 0 {
      var d := us[0].seconds;
      QuotientsReconstruct(rem % d, us[1..]);
      assert Quotients(rem, us)[1..] == Quotients(rem % d, us[1..]);
      assert rem == (rem / d) * d + rem % d;
    }
  }

  /** With a one-second unit at the end nothing is left over. */
  lemma {:induction false} LeftoverWithSecondUnit(rem: nat, us: seq<Unit>)
    requires PositiveUnits(us) && |us| > 0 && us[|us| - 1].seconds == 1
    ensures Leftover(rem, us) == 0
  {
    if |us| > 1 {
      LeftoverWithSecondUnit(rem % us[0].seconds, us[1..]);
    }
  }

  /** The six unit values of `seconds_to_pretty`. */
  function Decompose(seconds: nat): (vs: seq<nat>)
    ensures |vs| == 6
  {
    Quotients(seconds, Units)
  }

  /** One greedy step of `Quotients`. */
  lemma QuotientsCons(rem: nat, us: seq<Unit>)
    requires PositiveUnits(us) && |us| > 0
    ensures Quotients(rem, us) == [rem / us[0].seconds] + Quotients(rem % us[0].seconds, us[1..])
  {
  }

  /** The quotients of a three-unit table. */
  lemma QuotientsThree(rem: nat, us: seq<Unit>)
    requires PositiveUnits(us) && |us| == 3
    ensures var r1 := rem % us[0].seconds;
            Quotients(rem, us) == [rem / us[0].seconds, r1 / us[1].seconds, (r1 % us[1].seconds) / us[2].seconds]
  {
    var r1 := rem % us[0].seconds;
    assert us[1..][1..] == [us[2]] && us[1..][1..][1..] == [];
    QuotientsCons(r1 % us[1].seconds, us[1..][1..]);
  }

  /** The greedy steps written out unit by unit. */
  lemma DecomposeSteps(seconds: nat)
    ensures var r1 := seconds % 31536000; var r2 := r1 % 2592000; var r3 := r2 % 86400;
            var r4 := r3 % 3600; var r5 := r4 % 60;
            Decompose(seconds) == [seconds / 31536000, r1 / 2592000, r2 / 86400, r3 / 3600, r4 / 60, r5]
  {
    var r1 := seconds % 31536000;
    var r2 := r1 % 2592000;
    var r3 := r2 % 86400;
    assert PositiveUnits(Units);
    var front := Units[..3];
    var back := Units[3..];
    assert front == [Unit("year", 31536000), Unit("month", 2592000), Unit("day", 86400)];
    assert back == [Unit("hour", 3600), Unit("minute", 60), Unit("second", 1)];
    QuotientsThree(r3, back);
    QuotientsSplit(seconds, Units, 3);
    QuotientsThree(seconds, front);
    LeftoverThree(seconds, front);
  }

  /** Quotients over a table split in two: the first part, then the second
      part on what the first leaves over. */
  lemma {:induction false} QuotientsSplit(rem: nat, us: seq<Unit>, k: nat)
    requires PositiveUnits(us) && k <= |us|
    ensures Quotients(rem, us) == Quotients(rem, us[..k]) + Quotients(Leftover(rem, us[..k]), us[k..])
  {
    if k > 0 {
      QuotientsSplit(rem % us[0].seconds, us[1..], k - 1);
      assert us[1..][..k - 1] == us[..k][1..];
      assert us[1..][k - 1..] == us[k..];
    } else {
      assert us[..0] == [] && us[0..] == us;
    }
  }

  lemma LeftoverThree(rem: nat, us: seq<Unit>)
    requires PositiveUnits(us) && |us| == 3
    ensures Leftover(rem, us) == ((rem % us[0].seconds) % us[1].seconds) % us[2].seconds
  {
    var a := us[1..];
    var b := a[1..];
    var r1 := rem % us[0].seconds;
    var r2 := r1 % a[0].seconds;
    assert Leftover(rem, us) == Leftover(r1, a);
    assert Leftover(r1, a) == Leftover(r2, b);
    assert b[1..] == [];
    assert Leftover(r2, b) == Leftover(r2 % b[0].seconds, []);
  }

  /** For whole seconds the unit values add back up to the input exactly. */
  lemma DecomposeReconstructs(seconds: nat)
    ensures Weighted(Decompose(seconds), Units) == seconds
    ensures var vs := Decompose(seconds);
            vs[0] * 31536000 + vs[1] * 2592000 + vs[2] * 86400 + vs[3] * 3600 + vs[4] * 60 + vs[5] == seconds
  {
    QuotientsReconstruct(seconds, Units);
    LeftoverWithSecondUnit(seconds, Units);
    DecomposeSteps(seconds);
    var r1 := seconds % 31536000;
    var r2 := r1 % 2592000;
    var r3 := r2 % 86400;
    var r4 := r3 % 3600;
    assert seconds == (seconds / 31536000) * 31536000 + r1;
    assert r1 == (r1 / 2592000) * 2592000 + r2;
    assert r2 == (r2 / 86400) * 86400 + r3;
    assert r3 == (r3 / 3600) * 3600 + r4;
    assert r4 == (r4 / 60) * 60 + r4 % 60;
  }

  /** Each unit value is bounded by the unit above it: at most 12 months
      (360 of the 364 days below a year), fewer than 30 days, 24 hours,
      60 minutes and 60 seconds. */
  lemma DecomposeBounds(seconds: nat)
    ensures var vs := Decompose(seconds);
            vs[0] == seconds / 31536000 && vs[1] <= 12 && vs[2] < 30 && vs[3] < 24 && vs[4] < 60 && vs[5] < 60
  {
    DecomposeSteps(seconds);
  }

  /** The text for one unit: singular for 1, plural otherwise. */
  function Piece(value: nat, u: Unit): string {
    NatToString(value) + " " + u.name + (if value > 1 then "s" else "")
  }

  /** What the loop appends for one unit: nothing for 0, otherwise the piece and ", ". */
  function Appended(value: nat, u: Unit): string {
    if value >= 1 then Piece(value, u) + ", " else ""
  }

  function Accumulate(vs: seq<nat>, us: seq<Unit>): string
    requires |vs| == |us|
  {
    if |vs| == 0 then "" else Appended(vs[0], us[0]) + Accumulate(vs[1..], us[1..])
  }

  /** `seconds_to_pretty` as written: accumulate, then `rstrip(", ")`. */
  function SecondsToPretty(seconds: nat): string {
    RStrip(Accumulate(Decompose(seconds), Units), {',', ' '})
  }

  /** Reference definition: the pieces of the non-zero units, joined by ", ". */
  function NonZeroPieces(vs: seq<nat>, us: seq<Unit>): (ps: seq<string>)
    requires |vs| == |us|
    ensures |ps| <= |vs|
  {
    if |vs| == 0 then []
    else (if vs[0] >= 1 then [Piece(vs[0], us[0])] else []) + NonZeroPieces(vs[1..], us[1..])
  }

  predicate EndsInLetter(s: string) {
    |s| > 0 && 'a' <= s[|s| - 1] <= 'z'
  }

  predicate NamesEndInLetter(us: seq<Unit>) {
    forall i :: 0 <= i < |us| ==> EndsInLetter(us[i].name)
  }

  lemma PieceEndsInLetter(value: nat, u: Unit)
    requires EndsInLetter(u.name)
    ensures EndsInLetter(Piece(value, u))
  {
  }

  /** The accumulated text is each non-zero piece followed by ", ". */
  lemma {:induction false} AccumulateIsSuffixed(vs: seq<nat>, us: seq<Unit>)
    requires |vs| == |us|
    ensures var ps := NonZeroPieces(vs, us);
            Accumulate(vs, us) == Concat(seq(|ps|, i requires 0 <= i < |ps| => ps[i] + ", "))
  {
    if |vs| > 0 {
      AccumulateIsSuffixed(vs[1..], us[1..]);
      var tail := NonZeroPieces(vs[1..], us[1..]);
      var ps := NonZeroPieces(vs, us);
      var qs := seq(|ps|, i requires 0 <= i < |ps| => ps[i] + ", ");
      var qtail := seq(|tail|, i requires 0 <= i < |tail| => tail[i] + ", ");
      if vs[0] >= 1 {
        assert ps == [Piece(vs[0], us[0])] + tail;
        assert qs == [Piece(vs[0], us[0]) + ", "] + qtail;
        assert qs[1..] == qtail;
      } else {
        assert ps == tail;
      }
    }
  }

  /** Every non-zero piece ends in a letter of its unit's name. */
  lemma {:induction false} NonZeroPiecesEndInLetter(vs: seq<nat>, us: seq<Unit>)
    requires |vs| == |us| && NamesEndInLetter(us)
    ensures forall p :: p in NonZeroPieces(vs, us) ==> EndsInLetter(p)
  {
    if |vs| > 0 {
      NonZeroPiecesEndInLetter(vs[1..], us[1..]);
      if vs[0] >= 1 {
        PieceEndsInLetter(vs[0], us[0]);
      }
    }
  }

  lemma {:induction false} JoinEndsLikeLastPiece(ps: seq<string>)
    requires |ps| > 0 && forall p :: p in ps ==> EndsInLetter(p)
    ensures EndsInLetter(Join(ps, ", "))
  {
    if |ps| > 1 {
      assert ps[1..][0] in ps;
      JoinEndsLikeLastPiece(ps[1..]);
    } else {
      assert ps[0] in ps;
    }
  }

  lemma RStripSeparator(body: string)
    requires EndsInLetter(body)
    ensures RStrip(body + ", ", {',', ' '}) == body
  {
    var s := body + ", ";
    assert s[..|s| - 1] == body + ",";
    assert (body + ",")[..|body|] == body;
  }

  /** `seconds_to_pretty` equals the non-zero pieces joined by ", ": zero
      units are omitted, 1 is singular, larger values plural, and the
      trailing separator the loop leaves is exactly what `rstrip` removes. */
  lemma PrettyIsJoinOfPieces(seconds: nat)
    ensures SecondsToPretty(seconds) == Join(NonZeroPieces(Decompose(seconds), Units), ", ")
  {
    var vs := Decompose(seconds);
    var ps := NonZeroPieces(vs, Units);
    AccumulateIsSuffixed(vs, Units);
    if |ps| == 0 {
      assert Accumulate(vs, Units) == "";
    } else {
      ConcatIsJoinThenSep(ps, ", ");
      NonZeroPiecesEndInLetter(vs, Units);
      JoinEndsLikeLastPiece(ps);
      RStripSeparator(Join(ps, ", "));
    }
  }

  /** No piece is produced exactly when every unit value is zero. */
  lemma {:induction false} NoPiecesIffAllZero(vs: seq<nat>, us: seq<Unit>)
    requires |vs| == |us|
    ensures (forall i :: 0 <= i < |vs| ==> vs[i] == 0) <==> |NonZeroPieces(vs, us)| == 0
  {
    if |vs| > 0 {
      NoPiecesIffAllZero(vs[1..], us[1..]);
      if vs[0] == 0 && |NonZeroPieces(vs, us)| == 0 {
        forall i | 0 <= i < |vs| ensures vs[i] == 0 {
          if i > 0 { assert vs[i] == vs[1..][i - 1]; }
        }
      }
    }
  }

  lemma NoPiecesIffZero(seconds: nat)
    ensures |NonZeroPieces(Decompose(seconds), Units)| == 0 <==> seconds == 0
  {
    var vs := Decompose(seconds);
    NoPiecesIffAllZero(vs, Units);
    DecomposeReconstructs(seconds);
    if seconds == 0 {
      DecomposeSteps(seconds);
    }
  }

  /** The text is empty exactly for an input of zero seconds, and it never
      ends in the ", " separator. */
  lemma PrettyEmptyIffZero(seconds: nat)
    ensures SecondsToPretty(seconds) == "" <==> seconds == 0
    ensures var r := SecondsToPretty(seconds); |r| > 0 ==> r[|r| - 1] != ',' && r[|r| - 1] != ' '
  {
    var vs := Decompose(seconds);
    var ps := NonZeroPieces(vs, Units);
    PrettyIsJoinOfPieces(seconds);
    NoPiecesIffZero(seconds);
    if |ps| > 0 {
      NonZeroPiecesEndInLetter(vs, Units);
      JoinEndsLikeLastPiece(ps);
    }
  }
}

=== FILE: qotd.dfy ===
/** cogs/qotd.py: the question-of-the-day queue. The `qotds` collection is a
    sequence in natural order: `add` appends, `list` numbers a prefix of it
    that fits in one embed description, and the daily `sender` takes the
    first document off (`find_one_and_delete({})`). */
module Qotd {
  import opened Wrappers
  import opened Text

  /** An embed description holds at most 4096 characters. */
  const EmbedDescriptionMax: nat := 4096

  /** One queued question and the id of the user credited for it. */
  datatype Question = Question(text: string, credit: nat)

  /** `add`: append the question, credited to the invoking author when no
      credit is given. */
  function Add(queue: seq<Question>, text: string, credit: Option<nat>, author: nat): (r: seq<Question>)
    ensures |r| == |queue| + 1 && r[..|queue|] == queue
    ensures r[|queue|].text == text
    ensures credit.None? ==> r[|queue|].credit == author
    ensures credit.Some? ==> r[|queue|].credit == credit.value
  {
    queue + [Question(text, credit.GetOr(author))]
  }

  /** The line for entry number `i`: "**i.** question" and a blank line. */
  function Line(i: nat, question: string): string {
    "**" + NatToString(i) + ".** " + question + "\n\n"
  }

  /** The lines of the first `k` questions, numbered from 1. */
  function Lines(queue: seq<Question>, k: nat): string
    requires k <= |queue|
  {
    if k == 0 then "" else Lines(queue, k - 1) + Line(k, queue[k - 1].text)
  }

  /** `list`: add numbered lines while the description stays within 4096
      characters, stopping at the first line that does not fit. */
  method ListQueue(queue: seq<Question>) returns (description: string, shown: nat)
    ensures shown <= |queue|
    ensures description == Lines(queue, shown)
    ensures |description| <= EmbedDescriptionMax
    ensures shown < |queue| ==> |description| + |Line(shown + 1, queue[shown].text)| > EmbedDescriptionMax
  {
    description := "";
    shown := 0;
    var i := 1;
    while shown < |queue| && |description| + |Line(i, queue[shown].text)| <= EmbedDescriptionMax
      invariant shown <= |queue|
      invariant i == shown + 1
      invariant description == Lines(queue, shown)
      invariant |description| <= EmbedDescriptionMax
    {
      description := description + Line(i, queue[shown].text);
      shown := shown + 1;
      i := i + 1;
    }
  }

  /** Every shown entry k (1-based) is introduced by its number "**k.**". */
  lemma LinesNumbered(queue: seq<Question>, k: nat)
    requires 1 <= k <= |queue|
    ensures var prefix := Lines(queue, k - 1);
            var tag := "**" + NatToString(k) + ".** ";
            Lines(queue, k)[|prefix|..|prefix| + |tag|] == tag
  {
  }

  /** What the daily task posts. */
  datatype Post = NoQuestionsNotice | QuestionOfTheDay(question: Question)

  /** `sender`: take the first question off the queue and post it, or post
      the "no new questions" notice and leave the empty queue as it is. */
  function Sender(queue: seq<Question>): (r: (seq<Question>, Post))
    ensures |queue| == 0 ==> r == (queue, NoQuestionsNotice)
    ensures |queue| > 0 ==> |r.0| == |queue| - 1 && r.1 == QuestionOfTheDay(queue[0])
    ensures |queue| > 0 ==> queue == [queue[0]] + r.0
  {
    if |queue| == 0 then (queue, NoQuestionsNotice) else (queue[1..], QuestionOfTheDay(queue[0]))
  }

  /** First in, first out: after adding a question, the sender posts the
      oldest one, and posts the added one only once the queue before it is empty. */
  lemma AddThenSend(queue: seq<Question>, text: string, credit: Option<nat>, author: nat)
    ensures var r := Sender(Add(queue, text, credit, author));
            if |queue| == 0 then r == ([], QuestionOfTheDay(Question(text, credit.GetOr(author))))
            else r == (Add(queue[1..], text, credit, author), QuestionOfTheDay(queue[0]))
  {
    if |queue| > 0 {
      assert (queue + [Question(text, credit.GetOr(author))])[1..] == queue[1..] + [Question(text, credit.GetOr(author))];
    }
  }

  /** Sending from a queue of n questions n times posts them in queue order
      and empties it. */
  lemma {:induction false} SendAllInOrder(queue: seq<Question>)
    ensures Drain(queue) == queue
  {
    if |queue| > 0 {
      SendAllInOrder(queue[1..]);
    }
  }

  /** The questions posted by sending until the notice appears. */
  function Drain(queue: seq<Question>): seq<Question>
    decreases |queue|
  {
    var (rest, post) := Sender(queue);
    match post
    case NoQuestionsNotice => []
    case QuestionOfTheDay(q) => [q] + Drain(rest)
  }
}

=== FILE: text.dfy ===
/** String helpers that mirror the Python built-ins the bot relies on:
    `str(int)`, `int(str)`, `str.join`, `str.rstrip`, `str.lstrip`,
    `str.strip` and `str.startswith`. Strings are sequences of Unicode
    scalar values, as Python's `str` is a sequence of code points. */
module Text {

  predicate IsDigit(c: char) {
    '0' <= c <= '9'
  }

  predicate AllDigits(s: string) {
    forall i :: 0 <= i < |s| ==> IsDigit(s[i])
  }

  function DigitChar(d: nat): (c: char)
    requires d < 10
    ensures IsDigit(c)
  {
    (48 + d) as char
  }

  function DigitValue(c: char): (d: nat)
    requires IsDigit(c)
    ensures d < 10
    ensures DigitChar(d) == c
  {
    c as int - 48
  }

  /** `str(n)` for a non-negative integer: decimal digits, no leading zero. */
  function NatToString(n: nat): (s: string)
    ensures |s| >= 1
    ensures AllDigits(s)
    ensures n > 0 ==> s[0] != '0'
    ensures |s| == 1 <==> n < 10
    ensures |s| == 2 <==> 10 <= n < 100
  {
    if n < 10 then [DigitChar(n)] else NatToString(n / 10) + [DigitChar(n % 10)]
  }

  /** `int(s)` for a string of decimal digits. */
  function ParseNat(s: string): nat
    requires AllDigits(s)
  {
    if |s| == 0 then 0 else ParseNat(s[..|s| - 1]) * 10 + DigitValue(s[|s| - 1])
  }

  /** Printing a number in decimal and reading it back gives the number. */
  lemma {:induction false} ParseNatToString(n: nat)
    ensures ParseNat(NatToString(n)) == n
  {
    if n >= 10 {
      var s := NatToString(n);
      assert s[..|s| - 1] == NatToString(n / 10);
      ParseNatToString(n / 10);
    }
  }

  /** `str(i)` for any integer: a minus sign before the magnitude when negative. */
  function IntToString(i: int): (s: string)
    ensures i >= 0 ==> s == NatToString(i)
    ensures i < 0 ==> s == "-" + NatToString(-i)
  {
    if i < 0 then "-" + NatToString(-i) else NatToString(i)
  }

  /** Text that `int()` accepts in the forms `str(int)` produces. */
  predicate IntText(s: string) {
    AllDigits(s) || (|s| > 0 && s[0] == '-' && AllDigits(s[1..]))
  }

  /** `int(s)` for such text. */
  function ParseInt(s: string): int
    requires IntText(s)
  {
    if |s| > 0 && s[0] == '-' then 0 - ParseNat(s[1..]) as int else ParseNat(s) as int
  }

  /** Printing any integer and reading it back gives the integer. */
  lemma ParseIntToString(i: int)
    ensures IntText(IntToString(i))
    ensures ParseInt(IntToString(i)) == i
  {
    var s := IntToString(i);
    if i < 0 {
      assert s[1..] == NatToString(-i);
      ParseNatToString(-i);
    } else {
      ParseNatToString(i);
    }
  }

  /** `"".join(ss)` */
  function Concat(ss: seq<string>): (r: string)
    ensures |ss| == 0 ==> r == ""
  {
    if |ss| == 0 then "" else ss[0] + Concat(ss[1..])
  }

  /** `sep.join(ss)` */
  function Join(ss: seq<string>, sep: string): (r: string)
    ensures |ss| == 0 ==> r == ""
    ensures |ss| == 1 ==> r == ss[0]
  {
    if |ss| == 0 then ""
    else if |ss| == 1 then ss[0]
    else ss[0] + sep + Join(ss[1..], sep)
  }

  /** Concatenating pieces that each end in `sep` is the join of the pieces
      without it, followed by one trailing `sep`. */
  lemma {:induction false} ConcatIsJoinThenSep(ps: seq<string>, sep: string)
    requires |ps| > 0
    ensures Concat(seq(|ps|, i requires 0 <= i < |ps| => ps[i] + sep)) == Join(ps, sep) + sep
  {
    var qs := seq(|ps|, i requires 0 <= i < |ps| => ps[i] + sep);
    if |ps| == 1 {
      assert Concat(qs) == qs[0] + Concat(qs[1..]);
      assert qs[1..] == [];
    } else {
      var rest := seq(|ps| - 1, i requires 0 <= i < |ps| - 1 => ps[1..][i] + sep);
      assert qs[1..] == rest;
      ConcatIsJoinThenSep(ps[1..], sep);
    }
  }

  /** `s.rstrip(chars)`: drop every trailing character that is in `chars`. */
  function RStrip(s: string, chars: set<char>): (r: string)
    ensures |r| <= |s| && r == s[..|r|]
    ensures forall i :: |r| <= i < |s| ==> s[i] in chars
    ensures |r| > 0 ==> r[|r| - 1] !in chars
  {
    if |s| > 0 && s[|s| - 1] in chars then RStrip(s[..|s| - 1], chars) else s
  }

  /** `s.lstrip(chars)`: drop every leading character that is in `chars`. */
  function LStrip(s: string, chars: set<char>): (r: string)
    ensures |r| <= |s| && r == s[|s| - |r|..]
    ensures forall i :: 0 <= i < |s| - |r| ==> s[i] in chars
    ensures |r| > 0 ==> r[0] !in chars
  {
    if |s| > 0 && s[0] in chars then LStrip(s[1..], chars) else s
  }

  /** How many leading characters of `s` are in `chars`. */
  function LeadingRun(s: string, chars: set<char>): (n: nat)
    ensures n <= |s|
    ensures forall k :: 0 <= k < n ==> s[k] in chars
    ensures n < |s| ==> s[n] !in chars
  {
    if |s| > 0 && s[0] in chars then 1 + LeadingRun(s[1..], chars) else 0
  }

  /** `s.strip(chars)`: both ends. */
  function Strip(s: string, chars: set<char>): (r: string)
    ensures |r| <= |s|
    ensures |r| > 0 ==> r[0] !in chars && r[|r| - 1] !in chars
    ensures forall c :: c in r ==> c in s
    ensures (forall i :: 0 <= i < |s| ==> s[i] in chars) <==> r == ""
  {
    RStrip(LStrip(s, chars), chars)
  }

  /** What `strip` keeps is one contiguous slice of the input: it starts
      right after the leading run of stripped characters, and everything
      after it is a stripped character too. */
  lemma StripIsSlice(s: string, chars: set<char>)
    ensures var r := Strip(s, chars);
            var i := LeadingRun(s, chars);
            && i + |r| <= |s| && r == s[i..i + |r|]
            && forall k :: i + |r| <= k < |s| ==> s[k] in chars
  {
    var i := LeadingRun(s, chars);
    var l := LStrip(s, chars);
    LStripIsLeadingRun(s, chars);
    PrefixOfSuffixIsSlice(s, i, l, RStrip(l, chars), chars);
  }

  /** A prefix `r` of `l == s[i..]` whose remainder lies in `chars` is the
      slice `s[i..i + |r|]`, followed only by characters in `chars`. */
  lemma PrefixOfSuffixIsSlice(s: string, i: nat, l: string, r: string, chars: set<char>)
    requires i <= |s| && l == s[i..]
    requires |r| <= |l| && r == l[..|r|]
    requires forall j :: |r| <= j < |l| ==> l[j] in chars
    ensures i + |r| <= |s| && r == s[i..i + |r|]
    ensures forall k :: i + |r| <= k < |s| ==> s[k] in chars
  {
    forall k | i + |r| <= k < |s|
      ensures s[k] in chars
    {
      assert s[k] == l[k - i];
    }
  }

  /** `lstrip` drops exactly the leading run. */
  lemma {:induction false} LStripIsLeadingRun(s: string, chars: set<char>)
    ensures LStrip(s, chars) == s[LeadingRun(s, chars)..]
  {
    if |s| > 0 && s[0] in chars {
      LStripIsLeadingRun(s[1..], chars);
      assert s[1..][LeadingRun(s[1..], chars)..] == s[1 + LeadingRun(s[1..], chars)..];
    }
  }

  predicate StartsWith(s: string, prefix: string) {
    |prefix| <= |s| && s[..|prefix|] == prefix
  }

  predicate EndsWith(s: string, suffix: string) {
    |suffix| <= |s| && s[|s| - |suffix|..] == suffix
  }
}

=== FILE: timedelta.dfy ===
/** The range of Python's `datetime.timedelta`, which the `mute` and
    `selfmute` commands build from a user-supplied integer. A timedelta keeps
    whole days, seconds below a day and microseconds; its constructor
    normalises the arguments and raises `OverflowError` when the day count
    falls outside plus or minus 999999999. */
module Timedelta {
  /** `timedelta.max.days`. */
  const MaxDays: int := 999999999

  /** `timedelta(seconds=s).days`: whole days, floored. Dafny's `/` floors
      for a positive divisor, as Python's normalisation does. */
  function Days(seconds: int): int {
    seconds / 86400
  }

  /** `timedelta(seconds=s)` does not raise. */
  predicate Fits(seconds: int) {
    -MaxDays <= Days(seconds) <= MaxDays
  }

  /** The constructor succeeds exactly from -MaxDays days up to, but not
      including, MaxDays + 1 days. */
  lemma FitsIff(seconds: int)
    ensures Fits(seconds) <==> -MaxDays * 86400 <= seconds < (MaxDays + 1) * 86400
  {
  }
}

=== FILE: utils.dfy ===
/** `create_bar` (utils.py): a text progress bar of `size` cells. The source
    divides floats; this model uses whole numbers, so the filled count is
    the floor of progress * size / total exactly, without float rounding. */
module Utils {
  import opened Wrappers

  const Filled: char := '▰'
  const Empty: char := '▱'

  function Repeat(c: char, n: nat): (r: string)
    ensures |r| == n && forall i :: 0 <= i < n ==> r[i] == c
  {
    if n == 0 then "" else [c] + Repeat(c, n - 1)
  }

  /** `max(0, min(progress, total))` */
  function Clamp(progress: int, total: int): (r: int)
    ensures total >= 0 ==> 0 <= r <= total
    ensures 0 <= progress <= total ==> r == progress
    ensures progress < 0 ==> r == 0
    ensures progress >= total ==> r == (if total < 0 then 0 else total)
  {
    if progress < total then (if progress < 0 then 0 else progress)
    else (if total < 0 then 0 else total)
  }

  /** `create_bar(progress, total, size)`; `None` is the division by zero
      raised for a total of 0. */
  function CreateBar(progress: int, total: int, size: nat): (r: Option<string>)
    ensures r.None? <==> total == 0
    ensures r.Some? ==> |r.value| == size
  {
    if total == 0 then None
    else
      var p := Clamp(progress, total);
      var completed := p * size / total;
      assert 0 <= p * size / total <= size by {
        if total > 0 { DivBounds(p, total, size); } else { assert p == 0; }
      }
      Some(Repeat(Filled, completed) + Repeat(Empty, size - completed))
  }

  lemma DivBounds(p: int, total: int, size: nat)
    requires 0 <= p <= total && total > 0
    ensures 0 <= p * size / total <= size
  {
    assert p * size <= total * size by { MulLe(p, total, size); }
    assert (total * size) / total == size;
    DivMonotone(p * size, total * size, total);
  }

  lemma MulLe(a: int, b: int, c: nat)
    requires a <= b
    ensures a * c <= b * c
  {
  }

  lemma DivMonotone(x: int, y: int, d: int)
    requires 0 <= x <= y && d > 0
    ensures x / d <= y / d
  {
    var qx, qy := x / d, y / d;
    assert x == qx * d + x % d && y == qy * d + y % d;
    if qx > qy {
      MulLe(qy + 1, qx, d);
      assert false;
    }
  }

  /** The quotient is the q with q * d <= a < (q + 1) * d. */
  lemma DivUnique(a: int, d: int, q: int)
    requires d > 0 && q * d <= a < (q + 1) * d
    ensures a / d == q
  {
    var q' := a / d;
    assert a == q' * d + a % d;
    if q' > q {
      MulLe(q + 1, q', d);
      assert false;
    } else if q' < q {
      MulLe(q' + 1, q, d);
      assert false;
    }
  }

  lemma MulDivCancel(a: nat, d: int)
    requires d > 0
    ensures (d * a) / d == a
  {
    assert a * d == d * a;
    assert (a + 1) * d == d * a + d;
    DivUnique(d * a, d, a);
  }

  /** The number of filled cells at the start of a bar. */
  function FilledCount(bar: string): (n: nat)
    ensures n <= |bar|
    ensures forall i :: 0 <= i < n ==> bar[i] == Filled
    ensures n < |bar| ==> bar[n] != Filled
  {
    if |bar| > 0 && bar[0] == Filled then 1 + FilledCount(bar[1..]) else 0
  }

  lemma {:induction false} FilledCountOfBar(a: nat, b: nat)
    ensures FilledCount(Repeat(Filled, a) + Repeat(Empty, b)) == a
  {
    var s := Repeat(Filled, a) + Repeat(Empty, b);
    if a == 0 {
      assert s == Repeat(Empty, b);
      if b > 0 { assert s[0] == Empty; }
    } else {
      assert s[0] == Filled;
      assert s[1..] == Repeat(Filled, a - 1) + Repeat(Empty, b);
      FilledCountOfBar(a - 1, b);
    }
  }

  /** For a positive total the bar is `k` filled cells then `size - k`
      empty ones, `k` being the floor of p * size / total for the clamped
      progress p. */
  lemma BarCells(progress: int, total: int, size: nat) returns (k: nat)
    requires total > 0
    ensures k == Clamp(progress, total) * size / total && k <= size
    ensures CreateBar(progress, total, size) == Some(Repeat(Filled, k) + Repeat(Empty, size - k))
    ensures FilledCount(CreateBar(progress, total, size).value) == k
  {
    var p := Clamp(progress, total);
    k := p * size / total;
    DivBounds(p, total, size);
    FilledCountOfBar(k, size - k);
  }

  /** `a / d` is the floor of the quotient. */
  lemma DivFloor(a: int, d: int)
    requires d > 0
    ensures (a / d) * d <= a < (a / d + 1) * d
  {
    assert a == (a / d) * d + a % d;
    assert (a / d + 1) * d == (a / d) * d + d;
  }

  /** For a positive total the bar has every filled cell before every empty
      cell, and the filled count f is the floor of p * size / total for the
      clamped progress p: f * total <= p * size < (f + 1) * total. */
  lemma BarShape(progress: int, total: int, size: nat)
    requires total > 0
    ensures var bar := CreateBar(progress, total, size).value;
            var f := FilledCount(bar);
            var p := Clamp(progress, total);
            && 0 <= p <= total
            && (forall i :: 0 <= i < f ==> bar[i] == Filled)
            && (forall i :: f <= i < size ==> bar[i] == Empty)
            && f * total <= p * size < (f + 1) * total
  {
    var k := BarCells(progress, total, size);
    var bar := Repeat(Filled, k) + Repeat(Empty, size - k);
    forall i | k <= i < size ensures bar[i] == Empty {
      assert bar[i] == Repeat(Empty, size - k)[i - k];
    }
    DivFloor(Clamp(progress, total) * size, total);
  }

  /** Progress at or beyond the total fills the bar. */
  lemma BarFullAtTotal(progress: int, total: int, size: nat)
    requires total > 0 && progress >= total
    ensures CreateBar(progress, total, size) == Some(Repeat(Filled, size))
  {
    var p := Clamp(progress, total);
    assert p == total;
    MulDivCancel(size, total);
    assert p * size == total * size;
    assert p * size / total == size;
    assert Repeat(Filled, size) + Repeat(Empty, 0) == Repeat(Filled, size);
  }

  /** Progress at or below zero leaves it empty. */
  lemma BarEmptyAtZero(progress: int, total: int, size: nat)
    requires total > 0 && progress <= 0
    ensures CreateBar(progress, total, size) == Some(Repeat(Empty, size))
  {
    var p := Clamp(progress, total);
    assert p == 0;
    assert p * size == 0;
    assert p * size / total == 0;
    assert Repeat(Filled, 0) == "";
    assert Repeat(Filled, 0) + Repeat(Empty, size) == Repeat(Empty, size);
  }

  /** More progress never means fewer filled cells. */
  lemma BarMonotone(p1: int, p2: int, total: int, size: nat)
    requires total > 0 && p1 <= p2
    ensures FilledCount(CreateBar(p1, total, size).value) <= FilledCount(CreateBar(p2, total, size).value)
  {
    var c1 := Clamp(p1, total);
    var c2 := Clamp(p2, total);
    var k1 := BarCells(p1, total, size);
    var k2 := BarCells(p2, total, size);
    MulLe(c1, c2, size);
    DivMonotone(c1 * size, c2 * size, total);
  }
}

=== FILE: wrappers.dfy ===
/** Optional values and error-carrying results, used wherever the bot's
    Python code returns `None` or bails out of a command with a message. */
module Wrappers {

  /** A value that may be missing (Python's `None`). */
  datatype Option<+T> = None | Some(value: T) {

    /** The wrapped value, or `default` when there is none. */
    function GetOr(default: T): T {
      match this
      case Some(v) => v
      case None => default
    }
  }

  /** The outcome of a command: either its value or the reason it stopped. */
  datatype Result<+T, +E> = Ok(value: T) | Err(error: E)
}
